=== FILE: README.md ===
# Price monitor: a Dafny model

This project models the core of a small price monitor for product pages on a
shopping site. The monitor keeps a SQLite database of tracked products
(`products`) and of every price it has observed (`price_history`). It
refreshes those prices three ways:
- an hourly scheduled sweep;
- an on-demand sweep from the web API;
- a `check` command on the command line.

It also serves the products and their histories over HTTP. A separate seed
binary fills the database with five sample products and a week of invented
history.

The model is functional:

- **Store.** The database is a `Db.Store` value. It holds the product rows
  in rowid order, the history points in insertion order, and the next
  AUTOINCREMENT id. Every operation takes a store and returns a new one.
- **Outside world.** Each product an operation looks at gets one
  `Reconcile.Attempt`. It fixes what the fetched page contains, which SQL
  statements fail, and the clock reading, so each run is a deterministic
  function of its inputs.
- **Fetch.** The HTML request and page parsing become a
  `Scraper.Response`: the request failed, or a document whose title and
  price elements are present or absent. The conversion of title and price
  text that follows is modelled in full: `str::trim`, `str::parse::<i32>`,
  and `char::is_numeric`. For `char::is_numeric` the model carries the table of
  the Unicode categories `Nd`, `Nl` and `No` as of Unicode 15.0, as 136
  code-point ranges (see "Left out" for later Unicode versions).
- **Invariant.** `Db.Valid` is what the schema and the program keep true of
  the database:
  - ids ascend and lie below the counter;
  - urls are unique;
  - current prices fit in `i32` and are not negative;
  - every history price fits in `i32`;
  - every history point belongs to a product;
  - each product's points are in time order.

  Every writing operation is proved to keep it.

Modules follow the source files:
- `Scraper`: `src/scraper.rs`.
- `Db`: `src/db.rs`, plus the two `DELETE` statements of `src/web.rs`.
- `Reconcile`: the fetch, upsert and record step that four callers share.
- `Scheduler`: `src/scheduler.rs`.
- `Web`: `src/web.rs`.
- `Commands`: `src/commands.rs`.
- `SeedDb`: `src/bin/seed_db.rs`.
- `HistoryOrder`: the `ORDER BY checked_at`.
- `Prelude`: `Option`/`Result` and Rust's `i32` arithmetic.

Behaviour of the code worth noting:
- Recording a price does not check that the product exists. The code
  never turns `PRAGMA foreign_keys` on, and the model assumes SQLite's
  default of not enforcing the declared foreign key.
- Deleting a product runs two separate statements with no transaction
  around them. If the second fails, the history is already gone.
- The history of an id that names no product is an empty list, not an
  error.
- Adding a product records its first price as a history point. A product
  added at 1000 and then swept at 1100 therefore has two points, not one.
- Nothing stops the scheduled sweep and the on-demand sweep from running at
  the same time. There is no running flag and no bound on concurrent
  fetches.

## Model

| member | source | states |
|---|---|---|
| `Prelude.WrapI32` | src/commands.rs:76 | an `i32` result in range, congruent to the exact value modulo 2^32, and equal to it when it fits |
| `Prelude.TruncDiv` | src/bin/seed_db.rs:97 | Rust's integer division: the magnitude is the floor of the magnitudes' quotient, and the sign is the dividend's |
| `Scraper.ParseI32` | src/scraper.rs:47-48 | `str::parse::<i32>` on the kept characters: a result is always an `i32`. A non-empty string of ASCII digits parses iff its value is at most `i32::MAX`, and then to that value. A leading `-` never gives a positive number. Any other first character than a digit or sign, and a text with no ASCII digit, fail |
| `Scraper.ParseI32Exact` | src/scraper.rs:47-48 | only an optional sign followed by ASCII digits parses, so a stray character anywhere (such as "1a") is an error. A text `-` plus digits parses to minus their value iff that is at least `i32::MIN`, and `+` plus digits to their value iff it is at most `i32::MAX` |
| `Scraper.ParseI32RoundTrip` | src/scraper.rs:43-48 | formatting any `i32` and parsing it back gives the same number |
| `Scraper.KeepNumeric` | src/scraper.rs:43-46 | the kept characters are all numeric, a character occurs among them iff it is a numeric character of the text, there are no more of them than the text has, and a one-character text is kept iff that character is numeric |
| `Scraper.KeepNumericAppend` | src/scraper.rs:43-46 | the filter distributes over concatenation. With the one-character case of `KeepNumeric` this fixes the result: each numeric character of the text, in its original order and with its multiplicity |
| `Scraper.PriceFromText` | src/scraper.rs:42-48 | a price converts iff the numeric characters are non-empty, all ASCII digits, and at most `i32::MAX`. Its value is their decimal value. Text without an ASCII digit never converts |
| `Scraper.KeepNumericGrouped` | src/scraper.rs:42-46 | removing the thousands commas recovers the digit string |
| `Scraper.PriceFromYenText` | src/scraper.rs:42-48 | a price printed as a yen sign and comma-grouped digits converts back to that number |
| `Scraper.NonAsciiNumericRejected` | src/scraper.rs:43-48 | any numeric character that is not an ASCII digit (a fullwidth or Thai digit, a superscript, a fraction, a Roman numeral), anywhere in the price text, passes the filter and then makes the parse fail |
| `Scraper.Trim` | src/scraper.rs:24-31 | the title has no whitespace at either end, and it is empty iff the text was all whitespace |
| `Scraper.TrimKeepsMiddle` | src/scraper.rs:30 | the trimmed title is the input with its leading and trailing whitespace cut off: it equals the input's characters from the first non-whitespace one on, and everything before and after it is whitespace |
| `Scraper.TrimOfTrimmed` | src/scraper.rs:30 | a text with no whitespace at either end is its own trim |
| `Scraper.TrimIdempotent` | src/scraper.rs:30 | trimming twice is trimming once |
| `Scraper.FetchAmazonPrice` | src/scraper.rs:10-55 | a product carries the requested url and a price in `0..=i32::MAX`. Errors are checked in order: a failed request, then a missing title, then a missing price |
| `Scraper.FetchAmazonPriceOk` | src/scraper.rs:24-54 | the fetch succeeds iff the page is a document with both elements and the price text converts. The product then carries the trimmed title and the converted price |
| `Db.EmptyStoreValid` | src/db.rs:9-29 | a freshly created database satisfies the invariant |
| `Db.RowByUrlIffPresent` | src/db.rs:46-50 | with unique urls, looking a url up finds exactly the row stored under it |
| `Db.Upsert` | src/db.rs:37-50 | a known url keeps its id and row and gets the new name and price. An unknown url gets a new row with the next id, larger than every existing id. Other urls and the history are untouched |
| `Db.SaveProduct` | src/db.rs:34-53 | returns an id iff neither statement fails. A failed insert changes nothing. A failed lookup happens after the upsert took effect. The id returned is the url's row id |
| `Db.UpsertPreservesValid` | src/db.rs:34-53 | the upsert keeps the invariant, and the id it returns names a product |
| `Db.UpsertIdempotent` | src/db.rs:37-52 | upserting the same product twice gives one row under the same id with the same values |
| `Db.SavePriceHistory` | src/db.rs:55-65 | an append-only write. Existing points are kept in place. On success exactly one point, with the given id, price and time, is added to that product's history and to no other. Products are untouched |
| `Db.AppendPreservesValid` | src/db.rs:55-65 | appending a point with an `i32` price, no earlier than the existing ones, for an existing product, keeps the invariant |
| `Db.DeletePointsOf` | src/web.rs:186 | exactly the points of that product are removed; every other product's history is unchanged |
| `Db.DeleteRowsWithId` | src/web.rs:190 | exactly the rows with that id are removed. The set of ids loses that id. The list shrinks iff the id was present |
| `Db.DeleteRowsKeepsRowsValid` | src/web.rs:190 | deleting rows keeps ids ascending, urls unique and prices in range |
| `HistoryOrder.SortByTime` | src/web.rs:157-163 | the points come out in time order and are a permutation of the input. A history already in time order is returned unchanged |
| `Reconcile.AddByUrl` | src/commands.rs:8-19 | a failed fetch writes nothing, and neither does a failed insert. A point is recorded iff the fetch and both writes succeed; the save fails iff the upsert does. On success the url's row has the fetched name and price, and the history is the old one plus exactly one point under the returned id. Without a recorded point the history is unchanged. Other urls' rows and every other product's points are untouched |
| `Reconcile.SaveFetched` | src/commands.rs:11-13 | the two writes after a fetch. A failed insert leaves the store as it was. A failed upsert or a failed history write adds no point. Otherwise the history gains exactly one point, under the id the upsert returned. No other product's points change |
| `Reconcile.StrictStep` | src/scheduler.rs:61-86 | one sweep iteration. Its outcome is classified exactly by which step failed, and a recorded price is under the snapshot id. A failed fetch writes nothing. Other urls and other products' histories are untouched, and history only grows |
| `Reconcile.StrictStepOnPresent` | src/scheduler.rs:61-73 | for a snapshot row still in the store: the row is refreshed iff the upsert ran, a point is added under the snapshot id iff both writes succeed, and no id is handed out or removed |
| `Reconcile.StrictStepIsAdd` | src/scheduler.rs:64-73 | for a row still in the store, recording under the snapshot id is the same as recording under the id the upsert returns |
| `Reconcile.AddByUrlPreservesValid` | src/commands.rs:11-13 | adding or refreshing a product keeps the invariant |
| `Reconcile.SaveFetchedPreservesValid` | src/commands.rs:11-13 | saving a fetched product and recording its price keeps the invariant, whichever write fails |
| `Reconcile.StrictStepPreservesValid` | src/scheduler.rs:61-86 | one sweep iteration keeps the invariant |
| `Scheduler.Sweep` | src/scheduler.rs:54-87 | every snapshot row is counted exactly once, as a success or an error. Successes are the products whose fetch and both writes succeed. History only grows. Products outside the snapshot are untouched |
| `Scheduler.CheckAllPrices` | src/scheduler.rs:42-97 | a failure to list the products aborts without writing. Otherwise every product is attempted and successes plus errors equal the number of products |
| `Scheduler.SweepReconcilesRow` | src/scheduler.rs:58-73 | after the loop, each snapshot row is exactly what its own attempt left, whatever the other products' attempts did |
| `Scheduler.SweepReconcilesHistory` | src/scheduler.rs:58-73 | after the loop, each snapshot product's history is its old history plus the point its own attempt added |
| `Scheduler.CheckAllPricesReconciles` | src/scheduler.rs:58-87 | failure isolation: each product ends with its own attempt's row and points, whatever happened to the others |
| `Scheduler.SweepPreservesValid` | src/scheduler.rs:58-87 | the loop keeps the invariant when the clock does not run backwards |
| `Scheduler.CheckAllPricesPreservesValid` | src/scheduler.rs:42-97 | the scheduled sweep keeps the invariant |
| `Web.ListProducts` | src/web.rs:52-74 | every product, each exactly once, in descending id order. A failed query is a 500 |
| `Web.AddProduct` | src/web.rs:76-101 | a failed fetch is a 400 with no write. A failed write is a 500 with no history point, and a failed insert writes nothing. On success the body is the stored row under its id, and the history is the old one plus one point under that id. Other urls' rows and other products' points are untouched, and history only grows |
| `Web.AddProductPreservesValid` | src/web.rs:76-101 | adding through the API keeps the invariant |
| `Web.LenientStep` | src/web.rs:123-141 | a product is reported iff its fetch succeeded, whatever the writes did. The report carries the snapshot id and the fetched values. The row is refreshed iff the upsert ran. A point is added iff the append ran, even after a failed upsert |
| `Web.CheckEach` | src/web.rs:121-146 | the reported products are exactly the snapshot rows whose fetch succeeded, in ascending id order. History only grows. Products outside the snapshot are untouched |
| `Web.CheckPrices` | src/web.rs:103-149 | a failed listing is a 500 with no write. Otherwise the body lists exactly the products whose fetch succeeded, in snapshot order |
| `Web.CheckEachRow` | src/web.rs:121-146 | after the loop, each snapshot row is what its own attempt left |
| `Web.CheckEachHistory` | src/web.rs:121-146 | after the loop, each snapshot product's history is its old history plus the point its own attempt appended |
| `Web.CheckPricesReconciles` | src/web.rs:125-130 | each product ends with its own attempt's row and points; a point is recorded even when the upsert before it failed |
| `Web.CheckPricesPreservesValid` | src/web.rs:103-149 | the on-demand sweep keeps the invariant |
| `Web.GetPriceHistory` | src/web.rs:151-177 | exactly the product's points, each as often as it occurs (the same multiset), in non-decreasing time order. A failed query is a 500 |
| `Web.GetPriceHistoryInWriteOrder` | src/web.rs:157-163 | in a valid store the history comes back in the order it was written |
| `Web.GetPriceHistoryUnknownId` | src/web.rs:151-177 | in a valid store, an id that names no product has an empty history rather than an error |
| `Web.DeleteProduct` | src/web.rs:179-198 | with no failure: 204 iff the id named a product, otherwise 404; exactly that row goes and its points go with it. A failed history delete changes nothing. A failed product delete leaves the history deleted and the row in place. Ids are never reused |
| `Web.DeleteRowsKeepsAllWithoutId` | src/web.rs:190-195 | deleting an id no row has leaves the rows as they were |
| `Web.DeleteProductPreservesValid` | src/web.rs:179-198 | every outcome of a delete, including a half-done one, keeps the invariant |
| `Commands.CmdAdd` | src/commands.rs:8-19 | the command succeeds iff the fetch and both writes do. A fetch error or a failed insert writes nothing, and any error leaves the history unchanged. On success the row holds the fetched name and price, and the history is the old one plus one point under the row's id. Other urls' rows and other products' points are untouched |
| `Commands.CmdAddAgreesWithAddProduct` | src/commands.rs:11-13 | the command and the web handler make the same writes and succeed in the same cases. The command's fetch errors are exactly the handler's 400s |
| `Commands.Classify` | src/commands.rs:76-83 | for two non-negative `i32` prices: up iff the price rose, down iff it fell, unchanged iff equal, and the shown difference is exact |
| `Commands.FirstFault` | src/commands.rs:68-92 | the first snapshot row whose fetch succeeds but whose save or record fails; every earlier row is free of such a failure. It is the snapshot length when no row has one |
| `Commands.CheckLoop` | src/commands.rs:68-92 | one report line per product in order, for exactly the rows before the first failed write, which ends the command with a store error. Fetch errors are reported and skipped. The run succeeds iff it reached the end |
| `Commands.CmdCheck` | src/commands.rs:49-95 | the check command reports each product in snapshot order. It succeeds iff the listing and every write succeed. On failure the product after the last line is the one whose write failed |
| `Commands.CmdCheckReportsTrueChange` | src/commands.rs:76-85 | in a valid store the subtraction never wraps, so every reported change is the true difference from the stored price |
| `Commands.CheckLoopIsSweepPrefix` | src/commands.rs:68-92 | up to where it stops, the check command writes exactly what the scheduled sweep writes for the same products and attempts |
| `Commands.CmdCheckAgreesWithSweep` | src/commands.rs:49-95 | when no write fails, the check command and the scheduled sweep leave the same store |
| `Commands.CmdCheckPreservesValid` | src/commands.rs:49-95 | the check command keeps the invariant, also when it aborts part-way |
| `SeedDb.SeedPrice` | src/bin/seed_db.rs:96-97 | the varied price is always an `i32`, with Rust's truncating division and release-build wrap-around. For a base up to a tenth of `i32::MAX` and a variation in `-10..=10` nothing wraps |
| `SeedDb.SeedPriceWithinTenPercent` | src/bin/seed_db.rs:95-97 | for a base price up to a tenth of `i32::MAX`, nothing wraps and the varied price stays within ten percent of the base, on the side the variation's sign gives |
| `SeedDb.SeedPoints` | src/bin/seed_db.rs:90-104 | seven points for the new id, one day apart, from six days ago up to now, each price an `i32`. For a base up to a tenth of `i32::MAX`, each is priced within ten percent of the base |
| `SeedDb.SeedPointsInI32` | src/bin/seed_db.rs:96-102 | every seeded history price is an `i32`, for any base, so the week's rows decode when read back |
| `SeedDb.SeedPointsChronological` | src/bin/seed_db.rs:90-93 | the seeded week is in time order and none of it is in the future |
| `SeedDb.InsertOrIgnore` | src/bin/seed_db.rs:66-71 | a row is inserted iff the url is new. It gets the next id, and an ignored insert changes nothing |
| `SeedDb.SeedOne` | src/bin/seed_db.rs:65-109 | afterwards the sample's url is stored. A url already there is skipped with no write. A new one gets its row and exactly the seeded week under its new id. Other products are untouched |
| `SeedDb.Seed` | src/bin/seed_db.rs:65-110 | every sample url is stored afterwards. Rows that already existed are untouched, and so are the points of every id handed out before the loop. When every sample is already present, nothing changes. History only grows |
| `SeedDb.SeedSamples` | src/bin/seed_db.rs:35-110 | all five sample urls are stored afterwards. Pre-existing rows and the points of every id handed out before the run are untouched, and history only grows |
| `SeedDb.SeedTwiceIsSeedOnce` | src/bin/seed_db.rs:66-73 | running the seed binary a second time, at any time and with any random draws, changes nothing |
| `SeedDb.AppendBlockPreservesValid` | src/bin/seed_db.rs:99-103 | writing a week of points for a product with no history keeps the invariant |
| `SeedDb.SeedOnePreservesValid` | src/bin/seed_db.rs:65-104 | seeding one sample keeps the invariant |
| `SeedDb.SeedPreservesValid` | src/bin/seed_db.rs:65-110 | seeding keeps the invariant |
| `SeedDb.SeedFreshIds` | src/bin/seed_db.rs:67-79 | distinct samples not yet stored get consecutive fresh ids, in list order, and the counter advances by their number |
| `SeedDb.SeedFreshWeeks` | src/bin/seed_db.rs:73-104 | when distinct samples are not yet stored, sample `k`'s points under its id `nextId + k` are the old ones followed by exactly its own week of `SeedPoints` |
| `SeedDb.SamplesDistinct` | src/bin/seed_db.rs:35-61 | the five sample urls are pairwise distinct |
| `SeedDb.SeedIntoEmpty` | src/bin/seed_db.rs:65-81 | seeding a database with no products gives the samples the next ids in list order, so a fresh database numbers them 1 to 5 |
| `SeedDb.SeedEmptyStoreValid` | src/bin/seed_db.rs:12-110 | seeding a freshly created database leaves a valid store |

## Left out

- **HTTP and HTML.** The HTTP request, the user agent, and HTML parsing
  with CSS selectors are reduced to a `Scraper.Response`: request failed,
  or a document whose title and price elements are present or absent. The
  text of the first match is an input.
- **Concurrency.** The cron wiring (`start_scheduler`, `JobScheduler`), the
  axum router and server startup, `Arc<Mutex<Connection>>`, and `join_all`
  are not modelled. Each handler and sweep is one sequential function, so
  interleavings between sweeps running at the same time are not modelled.
- **Logging and output.** Console output, logging and `cmd_list` are
  printing only. `cmd_export` writes a CSV file, which is I/O outside the
  store.
- **Pause between fetches.** The one-second pause in the scheduled sweep is
  created but never awaited, so it does nothing. Time between fetches is
  not modelled either way.
- **Clock.** Each `Utc::now()` is collapsed into the one clock reading of
  an `Attempt`. `save_product` and `save_price_history` read the clock
  separately in the source. The seed binary likewise reads it once per
  point, and the model uses one `now` for all of them. Timestamps are whole
  seconds: the `%Y-%m-%d %H:%M:%S` text sorts like the number it denotes.
- **Row decoding.** Rows that fail to decode are silently dropped by the
  `filter_map(Result::ok)` of the listings. The model's rows always decode,
  because the invariant keeps product prices and history prices in `i32`.
- **Error detail.** Error messages and `anyhow` error kinds are reduced to
  which step failed.
- **AUTOINCREMENT ids.** A conflicting upsert and an ignored insert do not
  advance the counter in the model. SQLite may burn an AUTOINCREMENT value
  in those cases. The model's contracts only rely on new ids being fresh
  and larger than all stored ones.
- **History order for equal times.** SQL leaves the order of equal
  `checked_at` values open. The model keeps insertion order for them, which
  is one order SQL allows.
- **Seed binary failures.** Failures of the seed binary's SQL statements,
  which end the binary through `?`, are not modelled: it is a one-off
  fixture loader.
- **Entry points.** `src/main.rs` and `src/cli.rs` parse arguments and
  dispatch to the modelled functions. Dispatch is not modelled. The
  `.await` on the synchronous `fetch_amazon_price` is read as a plain call.
- **Blocking client in async code.** `fetch_amazon_price` builds a
  `reqwest::blocking` client, which panics when used inside an async
  runtime, as it is from the axum handlers and the scheduled job. The
  model treats every call as returning a `Scraper.Response` and does not
  model the panic.
- Scraper.PriceFromText: `char::is_numeric` follows the Unicode version of
  the Rust toolchain, and the model's table is that of Unicode 15.0.
  Characters that became numeric later (such as the digits added in
  Unicode 16.0) are dropped by the model's filter. A newer toolchain keeps
  them, and its parse then fails. For a price text holding one of them, the
  model may convert where the program reports `PriceUnparseable`.
- SeedDb.SeedPoints: the ten-percent bound is promised only for a base up
  to a tenth of `i32::MAX` (214748364). Above that, `base_price * variation`
  can wrap in a release build, and the model then computes the wrapped
  value without bounding it.
- Db.SavePriceHistory: appends a point whatever its product id. A SQLite
  build that enforces foreign keys by default (`SQLITE_DEFAULT_FOREIGN_KEYS=1`)
  would reject a point whose product does not exist. No path of the model
  writes such a point, so the difference is not observable in it.
- Commands.Classify: a debug build would panic on `i32` overflow in the
  subtraction. The model uses the release build's wrap-around. Both agree
  whenever both prices are non-negative, which the invariant guarantees.
- Web.CheckPrices: its contract says which products are reported and how
  each one's row and history end up. The interleaving of writes among the
  concurrent tasks is fixed to snapshot order.

=== FILE: commands.dfy ===
/** The command-line operations of src/commands.rs that change the store:
    `cmd_add` and `cmd_check`. Each printed report line of `cmd_check` is a
    `Line`; the text itself is not modelled. */
module Commands {
  import opened Prelude
  import Scraper
  import opened Db
  import opened Reconcile
  import Scheduler
  import Web

  /** The `anyhow::Error` a command returns, by where it came from. */
  datatype CommandError = FetchError(error: Scraper.FetchError) | StoreFailure

  datatype Added = Added(store: Store, result: Result<Scraper.Product, CommandError>)

  /** `cmd_add`: fetch, save, record; the first failure ends the command. */
  function CmdAdd(s: Store, url: string, a: Attempt): (r: Added)
    ensures !FetchOk(url, a) ==> r == Added(s, Err(FetchError(Fetch(url, a).error)))
    ensures r.result.Ok? <==> Succeeds(url, a)
    ensures FetchOk(url, a) && !Succeeds(url, a) ==> r.result == Err(StoreFailure)
    ensures r.result.Ok? ==>
      var p := r.result.value;
      && p == Fetch(url, a).value
      && RowByUrl(r.store, url).Some?
      && RowByUrl(r.store, url).value.name == p.name
      && RowByUrl(r.store, url).value.currentPrice == p.price
      && var id := RowByUrl(r.store, url).value.id;
         PointsOf(r.store.history, id) == PointsOf(s.history, id) + [PricePoint(id, p.price, a.at)]
    ensures forall u :: u != url ==> RowByUrl(r.store, u) == RowByUrl(s, u)
    ensures Extends(s.history, r.store.history)
    ensures FetchOk(url, a) && a.upsert == InsertFails ==> r.store == s
    ensures r.result.Err? ==> r.store.history == s.history
    ensures r.result.Ok? ==>
      r.store.history == s.history + [PricePoint(RowByUrl(r.store, url).value.id, r.result.value.price, a.at)]
    ensures forall q :: !(r.result.Ok? && q == RowByUrl(r.store, url).value.id) ==>
      PointsOf(r.store.history, q) == PointsOf(s.history, q)
  {
    var rec := AddByUrl(s, url, a);
    match rec.outcome
    case FetchFailed(e) => Added(rec.store, Err(FetchError(e)))
    case SaveFailed(_) => Added(rec.store, Err(StoreFailure))
    case HistoryFailed(_) => Added(rec.store, Err(StoreFailure))
    case Recorded(p, _) => Added(rec.store, Ok(p))
  }

  /** The command line and the web form add a product the same way: the
      same writes, and success in exactly the same cases. */
  lemma CmdAddAgreesWithAddProduct(s: Store, url: string, a: Attempt)
    ensures CmdAdd(s, url, a).store == Web.AddProduct(s, url, a).store
    ensures CmdAdd(s, url, a).result.Ok? <==> Web.AddProduct(s, url, a).result.Ok?
    ensures CmdAdd(s, url, a).result.Ok? ==>
      var p, x := CmdAdd(s, url, a).result.value, Web.AddProduct(s, url, a).result.value;
      x.url == p.url && x.name == p.name && x.currentPrice == p.price
    ensures CmdAdd(s, url, a).result.Err? ==>
      (CmdAdd(s, url, a).result.error.FetchError? <==> Web.AddProduct(s, url, a).result == Err(Web.BadRequest))
  {
    var rec := AddByUrl(s, url, a);
    var c, w := CmdAdd(s, url, a), Web.AddProduct(s, url, a);
    match rec.outcome
    case FetchFailed(e) =>
      assert c == Added(rec.store, Err(FetchError(e)));
      assert w == Web.Response(rec.store, Err(Web.BadRequest));
    case SaveFailed(_) =>
      assert c == Added(rec.store, Err(StoreFailure));
      assert w == Web.Response(rec.store, Err(Web.InternalServerError));
    case HistoryFailed(_) =>
      assert c == Added(rec.store, Err(StoreFailure));
      assert w == Web.Response(rec.store, Err(Web.InternalServerError));
    case Recorded(p, id) =>
      assert c == Added(rec.store, Ok(p));
      assert w == Web.Response(rec.store, Ok(Web.ApiProduct(id, p.url, p.name, p.price)));
  }

  // ---------------------------------------------------------------------
  // cmd_check

  /** The status shown next to a new price. */
  datatype PriceChange = Up(diff: int) | Down(diff: int) | Unchanged

  /** `product.price - old_price` in `i32` and its sign. The subtraction is
      written with the wrap-around of a release build; for two non-negative
      prices it cannot overflow. */
  function Classify(newPrice: int, oldPrice: int): (c: PriceChange)
    ensures c.Up? ==> 0 < c.diff <= MaxI32
    ensures c.Down? ==> MinI32 <= c.diff < 0
    ensures !c.Unchanged? ==> (c.diff - (newPrice - oldPrice)) % 0x1_0000_0000 == 0
    ensures 0 <= newPrice <= MaxI32 && 0 <= oldPrice <= MaxI32 ==>
      && (c.Up? <==> newPrice > oldPrice)
      && (c.Down? <==> newPrice < oldPrice)
      && (c.Unchanged? <==> newPrice == oldPrice)
      && (!c.Unchanged? ==> c.diff == newPrice - oldPrice)
  {
    var diff := WrapI32(newPrice - oldPrice);
    if diff > 0 then Up(diff)
    else if diff < 0 then Down(diff)
    else Unchanged
  }

  /** One report line: the new price and its change, or the fetch error. */
  datatype Line = Checked(price: int, change: PriceChange) | Failed(error: Scraper.FetchError)

  datatype CheckRun = CheckRun(store: Store, lines: seq<Line>, result: Result<(), CommandError>)

  /** The line printed for a snapshot row whose writes did not fail. */
  function LineFor(row: ProductRow, a: Attempt): Line {
    match Fetch(row.url, a)
    case Ok(p) => Checked(p.price, Classify(p.price, row.currentPrice))
    case Err(e) => Failed(e)
  }

  /** The fetch succeeded but one of the two writes after it failed; `?`
      then ends the whole command. */
  predicate WriteFault(row: ProductRow, a: Attempt) {
    FetchOk(row.url, a) && !Succeeds(row.url, a)
  }

  /** The lines printed so far are those of the first rows of the snapshot,
      none of which had a write fault. */
  predicate Reports(lines: seq<Line>, snap: seq<ProductRow>, attempts: seq<Attempt>)
    requires |lines| <= |snap| == |attempts|
  {
    forall k :: 0 <= k < |lines| ==> lines[k] == LineFor(snap[k], attempts[k]) && !WriteFault(snap[k], attempts[k])
  }

  /** None of the first `n` rows of the snapshot has a write fault. */
  predicate CleanBefore(snap: seq<ProductRow>, attempts: seq<Attempt>, n: nat)
    requires n <= |snap| == |attempts|
  {
    forall k :: 0 <= k < n ==> !WriteFault(snap[k], attempts[k])
  }

  /** The first row whose write fails, or the length of the snapshot when
      there is none. */
  function FirstFault(snap: seq<ProductRow>, attempts: seq<Attempt>): (n: nat)
    requires |attempts| == |snap|
    ensures n <= |snap|
    ensures n < |snap| ==> WriteFault(snap[n], attempts[n])
    ensures CleanBefore(snap, attempts, n)
  {
    FirstAt(snap, attempts, WriteFault)
  }

  /** The position of the first row that, taken with the attempt at the same
      position, satisfies `at`; the length when none does. */
  function FirstAt<R, A>(rows: seq<R>, tries: seq<A>, at: (R, A) -> bool): (n: nat)
    requires |tries| == |rows|
    ensures n <= |rows|
    ensures n < |rows| ==> at(rows[n], tries[n])
    ensures forall k :: 0 <= k < n ==> !at(rows[k], tries[k])
    decreases |rows|
  {
    if |rows| == 0 || at(rows[0], tries[0]) then 0
    else
      var m := FirstAt(rows[1..], tries[1..], at);
      assert forall k :: 1 <= k <= m ==> rows[1..][k - 1] == rows[k] && tries[1..][k - 1] == tries[k];
      1 + m
  }

  lemma LinesCons(snap: seq<ProductRow>, attempts: seq<Attempt>, rest: seq<Line>)
    requires |attempts| == |snap| > 0
    requires !WriteFault(snap[0], attempts[0])
    requires |rest| <= |snap| - 1
    requires Reports(rest, snap[1..], attempts[1..])
    ensures Reports([LineFor(snap[0], attempts[0])] + rest, snap, attempts)
  {
    assert forall k :: 1 <= k < |snap| ==> snap[1..][k - 1] == snap[k] && attempts[1..][k - 1] == attempts[k];
  }

  /** The loop of `cmd_check`: a fetch error is reported and skipped, a
      store error aborts. */
  function CheckLoop(s: Store, snap: seq<ProductRow>, attempts: seq<Attempt>): (r: CheckRun)
    requires |attempts| == |snap|
    ensures |r.lines| == FirstFault(snap, attempts)
    ensures Reports(r.lines, snap, attempts)
    ensures r.result.Ok? <==> |r.lines| == |snap|
    ensures r.result.Err? ==> r.result.error == StoreFailure
    ensures Extends(s.history, r.store.history)
    decreases |snap|
  {
    if |snap| == 0 then CheckRun(s, [], Ok(()))
    else
      var st := StrictStep(s, snap[0], attempts[0]);
      if st.outcome.SaveFailed? || st.outcome.HistoryFailed? then
        CheckRun(st.store, [], Err(StoreFailure))
      else
        var rest := CheckLoop(st.store, snap[1..], attempts[1..]);
        ExtendsTrans(s.history, st.store.history, rest.store.history);
        LinesCons(snap, attempts, rest.lines);
        CheckRun(rest.store, [LineFor(snap[0], attempts[0])] + rest.lines, rest.result)
  }

  /** `cmd_check`. `listFails` stands for the snapshot query failing. */
  function CmdCheck(s: Store, listFails: bool, attempts: seq<Attempt>): (r: CheckRun)
    requires |attempts| == |s.products|
    ensures listFails ==> r == CheckRun(s, [], Err(StoreFailure))
    ensures r.result.Ok? <==> !listFails && forall k :: 0 <= k < |s.products| ==> !WriteFault(s.products[k], attempts[k])
    ensures r.result.Ok? ==> |r.lines| == |s.products|
    ensures r.result.Err? && !listFails ==> |r.lines| < |s.products| && WriteFault(s.products[|r.lines|], attempts[|r.lines|])
    ensures |r.lines| <= |s.products|
    ensures forall k :: 0 <= k < |r.lines| ==> r.lines[k] == LineFor(s.products[k], attempts[k])
    ensures Extends(s.history, r.store.history)
  {
    if listFails then CheckRun(s, [], Err(StoreFailure))
    else CheckLoop(s, s.products, attempts)
  }

  /** In a valid store every reported change is the true difference between
      the new price and the stored one: the `i32` subtraction never wraps. */
  lemma CmdCheckReportsTrueChange(s: Store, attempts: seq<Attempt>, k: nat)
    requires Valid(s)
    requires |attempts| == |s.products|
    requires k < |CmdCheck(s, false, attempts).lines|
    requires CmdCheck(s, false, attempts).lines[k].Checked?
    ensures var line, was := CmdCheck(s, false, attempts).lines[k], s.products[k].currentPrice;
      && (line.change.Up? <==> line.price > was)
      && (line.change.Down? <==> line.price < was)
      && (line.change.Unchanged? <==> line.price == was)
      && (!line.change.Unchanged? ==> line.change.diff == line.price - was)
  {
    var line := CmdCheck(s, false, attempts).lines[k];
    assert line == LineFor(s.products[k], attempts[k]);
    assert 0 <= s.products[k].currentPrice <= MaxI32;
    assert FetchOk(s.products[k].url, attempts[k]);
  }

  /** How many snapshot rows `cmd_check` attempted before it stopped: all of
      them, or those it reported plus the one whose write failed. */
  function Reached(r: CheckRun): nat {
    if r.result.Ok? then |r.lines| else |r.lines| + 1
  }

  /** Up to where it stops, `cmd_check` writes exactly what the scheduled
      sweep writes over the same rows with the same attempts. */
  lemma {:induction false} CheckLoopIsSweepPrefix(s: Store, snap: seq<ProductRow>, attempts: seq<Attempt>)
    requires |attempts| == |snap|
    ensures Reached(CheckLoop(s, snap, attempts)) <= |snap|
    ensures var n := Reached(CheckLoop(s, snap, attempts));
      CheckLoop(s, snap, attempts).store == Scheduler.Sweep(s, snap[..n], attempts[..n]).store
    decreases |snap|
  {
    if |snap| > 0 {
      var st := StrictStep(s, snap[0], attempts[0]);
      if st.outcome.SaveFailed? || st.outcome.HistoryFailed? {
        assert CheckLoop(s, snap, attempts) == CheckRun(st.store, [], Err(StoreFailure));
        SweepOne(s, snap[..1], attempts[..1]);
      } else {
        var rest := CheckLoop(st.store, snap[1..], attempts[1..]);
        assert CheckLoop(s, snap, attempts).store == rest.store;
        assert CheckLoop(s, snap, attempts).result == rest.result;
        var m := Reached(rest);
        CheckLoopIsSweepPrefix(st.store, snap[1..], attempts[1..]);
        assert Reached(CheckLoop(s, snap, attempts)) == m + 1;
        SweepCons(s, snap, attempts, m + 1);
      }
    }
  }

  lemma SweepOne(s: Store, snap: seq<ProductRow>, attempts: seq<Attempt>)
    requires |snap| == |attempts| == 1
    ensures Scheduler.Sweep(s, snap, attempts).store == StrictStep(s, snap[0], attempts[0]).store
  {
    var st := StrictStep(s, snap[0], attempts[0]);
    assert snap[1..] == [] && attempts[1..] == [];
    assert Scheduler.Sweep(st.store, snap[1..], attempts[1..]).store == st.store;
  }

  /** The sweep over a non-empty prefix is one step followed by the sweep
      over the rest of the prefix. */
  lemma SweepCons(s: Store, snap: seq<ProductRow>, attempts: seq<Attempt>, n: nat)
    requires |attempts| == |snap|
    requires 0 < n <= |snap|
    ensures var st := StrictStep(s, snap[0], attempts[0]);
      Scheduler.Sweep(s, snap[..n], attempts[..n]).store
        == Scheduler.Sweep(st.store, snap[1..][..n - 1], attempts[1..][..n - 1]).store
  {
    assert snap[..n][0] == snap[0] && attempts[..n][0] == attempts[0];
    assert snap[..n][1..] == snap[1..][..n - 1];
    assert attempts[..n][1..] == attempts[1..][..n - 1];
  }

  /** With no store failure, `cmd_check` and `check_all_prices` leave the
      same store behind. */
  lemma CmdCheckAgreesWithSweep(s: Store, attempts: seq<Attempt>)
    requires |attempts| == |s.products|
    requires CmdCheck(s, false, attempts).result.Ok?
    ensures CmdCheck(s, false, attempts).store == Scheduler.CheckAllPrices(s, false, attempts).store
  {
    CheckLoopIsSweepPrefix(s, s.products, attempts);
    assert s.products[..|s.products|] == s.products;
    assert attempts[..|attempts|] == attempts;
  }

  lemma TicksPrefix(h: seq<PricePoint>, attempts: seq<Attempt>, n: nat)
    requires n <= |attempts|
    requires Ticks(h, attempts)
    ensures Ticks(h, attempts[..n])
  {
  }

  lemma CmdCheckPreservesValid(s: Store, listFails: bool, attempts: seq<Attempt>)
    requires Valid(s)
    requires |attempts| == |s.products|
    requires Ticks(s.history, attempts)
    ensures Valid(CmdCheck(s, listFails, attempts).store)
  {
    if !listFails {
      var r := CheckLoop(s, s.products, attempts);
      CheckLoopIsSweepPrefix(s, s.products, attempts);
      var n := Reached(r);
      var snap := s.products[..n];
      forall j | 0 <= j < |snap| ensures Present(s, snap[j]) {
        RowByUrlAt(s, j);
      }
      assert UrlsUnique(snap);
      TicksPrefix(s.history, attempts, n);
      Scheduler.SweepPreservesValid(s, snap, attempts[..n]);
    }
  }
}

=== FILE: db.dfy ===
/** The SQLite store of src/db.rs: a `products` relation with a UNIQUE `url`
    and an AUTOINCREMENT `id`, and an append-only `price_history` relation.
    Rows are kept in rowid order, which is the order a plain `SELECT`
    enumerates them in. A failing SQL statement is an oracle input. */
module Db {
  import opened Prelude
  import Scraper

  datatype ProductRow = ProductRow(id: int, url: string, name: string, currentPrice: int, createdAt: Time)

  datatype PricePoint = PricePoint(productId: int, price: int, checkedAt: Time)

  /** `nextId` is one past the largest id ever handed out (SQLite's
      `sqlite_sequence` entry for AUTOINCREMENT). */
  datatype Store = Store(products: seq<ProductRow>, history: seq<PricePoint>, nextId: int)

  /** A failed SQL statement; its cause is not modelled. */
  datatype StoreError = StoreError

  /** Where `save_product` can fail: in the upsert statement itself (nothing
      written), or in the id lookup that follows it (upsert already applied). */
  datatype UpsertFault = NoFault | InsertFails | LookupFails

  datatype Written<T> = Written(store: Store, result: Result<T, StoreError>)

  datatype Saved = Saved(store: Store, id: int)

  /** A freshly created database file. */
  const EmptyStore: Store := Store([], [], 1)

  // ---------------------------------------------------------------------
  // Views

  /** The position of the first row with this url. */
  function IndexOfUrl(ps: seq<ProductRow>, url: string): (r: Option<nat>)
    ensures r.Some? ==> r.value < |ps| && ps[r.value].url == url
    ensures r.Some? ==> forall i :: 0 <= i < r.value ==> ps[i].url != url
    ensures r.None? <==> forall i :: 0 <= i < |ps| ==> ps[i].url != url
  {
    if |ps| == 0 then None
    else if ps[0].url == url then Some(0)
    else
      match IndexOfUrl(ps[1..], url)
      case None => None
      case Some(i) => Some(i + 1)
  }

  /** `SELECT ... FROM products WHERE url = ?`. */
  function RowByUrl(s: Store, url: string): Option<ProductRow> {
    match IndexOfUrl(s.products, url)
    case None => None
    case Some(i) => Some(s.products[i])
  }

  function Ids(ps: seq<ProductRow>): set<int> {
    set i | 0 <= i < |ps| :: ps[i].id
  }

  function Urls(ps: seq<ProductRow>): set<string> {
    set i | 0 <= i < |ps| :: ps[i].url
  }

  /** The history points of one product, in insertion order. */
  function PointsOf(h: seq<PricePoint>, id: int): (r: seq<PricePoint>)
    ensures |r| <= |h|
    ensures forall pt :: pt in r <==> pt in h && pt.productId == id
  {
    if |h| == 0 then []
    else PointsOf(h[..|h| - 1], id) + (if h[|h| - 1].productId == id then [h[|h| - 1]] else [])
  }

  /** `h2` keeps the points of `h` in place and may add more after them. */
  predicate Extends(h: seq<PricePoint>, h2: seq<PricePoint>) {
    |h| <= |h2| && h2[..|h|] == h
  }

  lemma ExtendsTrans(h0: seq<PricePoint>, h1: seq<PricePoint>, h2: seq<PricePoint>)
    requires Extends(h0, h1) && Extends(h1, h2)
    ensures Extends(h0, h2)
  {
    assert h2[..|h0|] == h2[..|h1|][..|h0|];
  }

  /** The row a successful fetch leaves behind: new name and price, same id
      and creation time. */
  function Refreshed(row: ProductRow, p: Scraper.Product): ProductRow {
    row.(name := p.name, currentPrice := p.price)
  }

  // ---------------------------------------------------------------------
  // Invariant

  predicate IdsAscending(ps: seq<ProductRow>) {
    forall i, j :: 0 <= i < j < |ps| ==> ps[i].id < ps[j].id
  }

  predicate IdsBelow(ps: seq<ProductRow>, nextId: int) {
    forall i :: 0 <= i < |ps| ==> 1 <= ps[i].id < nextId
  }

  predicate UrlsUnique(ps: seq<ProductRow>) {
    forall i, j :: 0 <= i < j < |ps| ==> ps[i].url != ps[j].url
  }

  predicate PricesInI32(ps: seq<ProductRow>) {
    forall i :: 0 <= i < |ps| ==> 0 <= ps[i].currentPrice <= MaxI32
  }

  /** Every history price fits the `i32` that `get_price_history` decodes it into. */
  predicate HistoryInI32(h: seq<PricePoint>) {
    forall pt :: pt in h ==> InI32(pt.price)
  }

  /** Every history point belongs to an existing product. */
  predicate NoOrphans(s: Store) {
    forall pt :: pt in s.history ==> pt.productId in Ids(s.products)
  }

  predicate Chronological(xs: seq<PricePoint>) {
    forall i, j :: 0 <= i < j < |xs| ==> xs[i].checkedAt <= xs[j].checkedAt
  }

  ghost predicate PerProductChronological(h: seq<PricePoint>) {
    forall q :: Chronological(PointsOf(h, q))
  }

  /** No history point is later than `t`. */
  predicate NotAfter(h: seq<PricePoint>, t: Time) {
    forall k :: 0 <= k < |h| ==> h[k].checkedAt <= t
  }

  /** What the schema and the program together keep true of the database. */
  ghost predicate Valid(s: Store) {
    && s.nextId >= 1
    && IdsAscending(s.products)
    && IdsBelow(s.products, s.nextId)
    && UrlsUnique(s.products)
    && PricesInI32(s.products)
    && HistoryInI32(s.history)
    && NoOrphans(s)
    && PerProductChronological(s.history)
  }

  lemma EmptyStoreValid()
    ensures Valid(EmptyStore)
  {
  }

  // ---------------------------------------------------------------------
  // View lemmas

  lemma IndexOfUrlSameUrls(ps: seq<ProductRow>, qs: seq<ProductRow>, u: string)
    requires |ps| == |qs|
    requires forall i :: 0 <= i < |ps| ==> ps[i].url == qs[i].url
    ensures IndexOfUrl(ps, u) == IndexOfUrl(qs, u)
  {
    assert forall i :: 0 <= i < |ps| ==> (ps[i].url == u <==> qs[i].url == u);
  }

  lemma IndexOfUrlAppend(ps: seq<ProductRow>, x: ProductRow, u: string)
    ensures IndexOfUrl(ps + [x], u) ==
      if IndexOfUrl(ps, u).Some? then IndexOfUrl(ps, u)
      else if x.url == u then Some(|ps|)
      else None
  {
    assert forall i :: 0 <= i < |ps| ==> (ps + [x])[i] == ps[i];
    assert (ps + [x])[|ps|] == x;
  }

  /** With unique urls, a row is found by its url exactly when it is present. */
  lemma RowByUrlIffPresent(s: Store, u: string, row: ProductRow)
    requires UrlsUnique(s.products)
    ensures RowByUrl(s, u) == Some(row) <==> row in s.products && row.url == u
  {
    if row in s.products && row.url == u {
      var i :| 0 <= i < |s.products| && s.products[i] == row;
      var j := IndexOfUrl(s.products, u);
      assert j.Some?;
    }
  }

  lemma RowByUrlAt(s: Store, i: int)
    requires UrlsUnique(s.products)
    requires 0 <= i < |s.products|
    ensures RowByUrl(s, s.products[i].url) == Some(s.products[i])
  {
    RowByUrlIffPresent(s, s.products[i].url, s.products[i]);
  }

  /** Dropping the first row of a list keeps the rest of its urls and ids. */
  lemma TailViews(ps: seq<ProductRow>)
    requires |ps| > 0
    ensures Urls(ps) == Urls(ps[1..]) + {ps[0].url}
    ensures Ids(ps) == Ids(ps[1..]) + {ps[0].id}
  {
    assert forall j :: 1 <= j < |ps| ==> ps[1..][j - 1] == ps[j];
  }

  lemma PointsOfAppend(h: seq<PricePoint>, pt: PricePoint)
    ensures forall q :: PointsOf(h + [pt], q) == PointsOf(h, q) + (if pt.productId == q then [pt] else [])
  {
    assert (h + [pt])[..|h|] == h;
  }

  lemma PointsOfEmptyWhenAbsent(h: seq<PricePoint>, q: int)
    requires forall pt :: pt in h ==> pt.productId != q
    ensures PointsOf(h, q) == []
  {
    var r := PointsOf(h, q);
    assert forall k :: 0 <= k < |r| ==> r[k] in r;
  }

  // ---------------------------------------------------------------------
  // save_product

  /** The upsert statement followed by the id lookup, when neither fails:
      `INSERT ... ON CONFLICT(url) DO UPDATE SET name, current_price`, then
      `SELECT id FROM products WHERE url = ?`. */
  function Upsert(s: Store, p: Scraper.Product, now: Time): (r: Saved)
    ensures r.store.history == s.history
    ensures forall u :: u != p.url ==> RowByUrl(r.store, u) == RowByUrl(s, u)
    ensures RowByUrl(s, p.url).Some? ==>
      && RowByUrl(r.store, p.url) == Some(Refreshed(RowByUrl(s, p.url).value, p))
      && r.id == RowByUrl(s, p.url).value.id
      && r.store.nextId == s.nextId
      && Ids(r.store.products) == Ids(s.products)
      && |r.store.products| == |s.products|
    ensures RowByUrl(s, p.url).None? ==>
      && RowByUrl(r.store, p.url) == Some(ProductRow(s.nextId, p.url, p.name, p.price, now))
      && r.id == s.nextId
      && r.store.nextId == s.nextId + 1
      && Ids(r.store.products) == Ids(s.products) + {s.nextId}
      && |r.store.products| == |s.products| + 1
    ensures RowByUrl(s, p.url).None? && IdsBelow(s.products, s.nextId) ==>
      forall i :: 0 <= i < |s.products| ==> s.products[i].id < r.id
  {
    match IndexOfUrl(s.products, p.url)
    case Some(k) =>
      var row := s.products[k];
      RefreshInPlace(s.products, k, p);
      Saved(s.(products := s.products[k := Refreshed(row, p)]), row.id)
    case None =>
      var row := ProductRow(s.nextId, p.url, p.name, p.price, now);
      AppendRow(s.products, row);
      Saved(s.(products := s.products + [row], nextId := s.nextId + 1), s.nextId)
  }

  /** Rewriting one row in place moves no url and no id. */
  lemma RefreshInPlace(ps: seq<ProductRow>, k: nat, p: Scraper.Product)
    requires k < |ps|
    ensures var qs := ps[k := Refreshed(ps[k], p)];
      && (forall u :: IndexOfUrl(qs, u) == IndexOfUrl(ps, u))
      && Ids(qs) == Ids(ps)
  {
    var qs := ps[k := Refreshed(ps[k], p)];
    forall u ensures IndexOfUrl(qs, u) == IndexOfUrl(ps, u) {
      IndexOfUrlSameUrls(qs, ps, u);
    }
    assert forall i :: 0 <= i < |qs| ==> qs[i].id == ps[i].id;
  }

  /** Appending a row finds every earlier url where it was, and the new url
      at the end when it was not there before. */
  lemma AppendRow(ps: seq<ProductRow>, row: ProductRow)
    ensures var qs := ps + [row];
      && (forall u :: IndexOfUrl(qs, u) ==
           if IndexOfUrl(ps, u).Some? then IndexOfUrl(ps, u) else if row.url == u then Some(|ps|) else None)
      && Ids(qs) == Ids(ps) + {row.id}
  {
    forall u {
      IndexOfUrlAppend(ps, row, u);
    }
    IdsAppend(ps, row);
  }

  /** `save_product`. An upsert failure leaves the store as it was; a
      lookup failure comes after the upsert has been applied. */
  function SaveProduct(s: Store, p: Scraper.Product, now: Time, fault: UpsertFault): (r: Written<int>)
    ensures r.result.Ok? <==> fault == NoFault
    ensures fault == InsertFails ==> r.store == s
    ensures fault != InsertFails ==> r.store == Upsert(s, p, now).store
    ensures r.result.Ok? ==> RowByUrl(r.store, p.url).Some? && r.result.value == RowByUrl(r.store, p.url).value.id
    ensures r.store.history == s.history
  {
    match fault
    case InsertFails => Written(s, Err(StoreError))
    case LookupFails => Written(Upsert(s, p, now).store, Err(StoreError))
    case NoFault =>
      var saved := Upsert(s, p, now);
      Written(saved.store, Ok(saved.id))
  }

  predicate RowsValid(ps: seq<ProductRow>, nextId: int) {
    && IdsAscending(ps)
    && IdsBelow(ps, nextId)
    && UrlsUnique(ps)
    && PricesInI32(ps)
  }

  lemma RefreshKeepsRowsValid(ps: seq<ProductRow>, nextId: int, k: nat, p: Scraper.Product)
    requires RowsValid(ps, nextId)
    requires k < |ps| && 0 <= p.price <= MaxI32
    ensures RowsValid(ps[k := Refreshed(ps[k], p)], nextId)
  {
    var qs := ps[k := Refreshed(ps[k], p)];
    assert forall i :: 0 <= i < |qs| ==> qs[i].id == ps[i].id && qs[i].url == ps[i].url;
  }

  lemma InsertKeepsRowsValid(ps: seq<ProductRow>, nextId: int, row: ProductRow)
    requires RowsValid(ps, nextId)
    requires row.id == nextId >= 1 && 0 <= row.currentPrice <= MaxI32
    requires forall i :: 0 <= i < |ps| ==> ps[i].url != row.url
    ensures RowsValid(ps + [row], nextId + 1)
  {
    var qs := ps + [row];
    assert forall i :: 0 <= i < |ps| ==> qs[i] == ps[i];
    assert qs[|ps|] == row;
  }

  lemma UpsertPreservesValid(s: Store, p: Scraper.Product, now: Time)
    requires Valid(s)
    requires 0 <= p.price <= MaxI32
    ensures Valid(Upsert(s, p, now).store)
    ensures Upsert(s, p, now).id in Ids(Upsert(s, p, now).store.products)
  {
    var r := Upsert(s, p, now);
    var ps := s.products;
    assert RowsValid(ps, s.nextId);
    match IndexOfUrl(ps, p.url)
    case Some(k) =>
      RefreshKeepsRowsValid(ps, s.nextId, k, p);
    case None =>
      var row := ProductRow(s.nextId, p.url, p.name, p.price, now);
      InsertKeepsRowsValid(ps, s.nextId, row);
  }

  /** Saving the same product twice returns the same id, and the second
      save changes nothing. */
  lemma UpsertIdempotent(s: Store, p: Scraper.Product, t1: Time, t2: Time)
    ensures Upsert(Upsert(s, p, t1).store, p, t2).id == Upsert(s, p, t1).id
    ensures Upsert(Upsert(s, p, t1).store, p, t2).store == Upsert(s, p, t1).store
  {
    var s1 := Upsert(s, p, t1).store;
    var k :| k == IndexOfUrl(s1.products, p.url).value;
    assert s1.products[k := Refreshed(s1.products[k], p)] == s1.products;
  }

  // ---------------------------------------------------------------------
  // save_price_history

  /** `save_price_history`: one `INSERT` into `price_history`. There is no
      check that `productId` names a product: the code never turns
      `PRAGMA foreign_keys` on, and SQLite's default does not enforce the
      declared foreign key. */
  function SavePriceHistory(s: Store, productId: int, price: int, now: Time, fails: bool): (r: Written<()>)
    ensures r.result.Ok? <==> !fails
    ensures r.store.products == s.products && r.store.nextId == s.nextId
    ensures |r.store.history| == |s.history| + (if fails then 0 else 1)
    ensures Extends(s.history, r.store.history)
    ensures !fails ==> r.store.history[|s.history|] == PricePoint(productId, price, now)
    ensures forall q :: (PointsOf(r.store.history, q) ==
      PointsOf(s.history, q) + (if !fails && q == productId then [PricePoint(productId, price, now)] else []))
  {
    if fails then Written(s, Err(StoreError))
    else
      var pt := PricePoint(productId, price, now);
      PointsOfAppend(s.history, pt);
      Written(s.(history := s.history + [pt]), Ok(()))
  }

  lemma AppendPreservesValid(s: Store, productId: int, price: int, now: Time)
    requires Valid(s)
    requires productId in Ids(s.products)
    requires InI32(price)
    requires NotAfter(s.history, now)
    ensures Valid(SavePriceHistory(s, productId, price, now, false).store)
    ensures NotAfter(SavePriceHistory(s, productId, price, now, false).store.history, now)
  {
    var pt := PricePoint(productId, price, now);
    var h := s.history + [pt];
    PointsOfAppend(s.history, pt);
    forall q ensures Chronological(PointsOf(h, q)) {
      var xs := PointsOf(s.history, q);
      assert Chronological(xs);
      forall i | 0 <= i < |xs| ensures xs[i].checkedAt <= now {
        assert xs[i] in s.history;
      }
    }
  }

  // ---------------------------------------------------------------------
  // Deleting a product

  /** `DELETE FROM price_history WHERE product_id = ?`. */
  function DeletePointsOf(h: seq<PricePoint>, id: int): (r: seq<PricePoint>)
    ensures forall pt :: pt in r <==> pt in h && pt.productId != id
    ensures forall q :: q != id ==> PointsOf(r, q) == PointsOf(h, q)
    ensures PointsOf(r, id) == []
  {
    if |h| == 0 then []
    else
      var init, last := h[..|h| - 1], h[|h| - 1];
      var r0 := DeletePointsOf(init, id);
      assert h == init + [last];
      if last.productId == id then
        PointsOfEmptyWhenAbsent(r0, id);
        r0
      else
        PointsOfAppend(r0, last);
        PointsOfEmptyWhenAbsent(r0 + [last], id);
        r0 + [last]
  }

  /** `DELETE FROM products WHERE id = ?`. */
  function DeleteRowsWithId(ps: seq<ProductRow>, id: int): (r: seq<ProductRow>)
    ensures forall row :: row in r <==> row in ps && row.id != id
    ensures Ids(r) == Ids(ps) - {id}
    ensures |r| <= |ps|
    ensures |r| == |ps| <==> id !in Ids(ps)
  {
    if |ps| == 0 then []
    else
      var init, last := ps[..|ps| - 1], ps[|ps| - 1];
      assert ps == init + [last];
      IdsAppend(init, last);
      var r0 := DeleteRowsWithId(init, id);
      if last.id == id then r0
      else
        IdsAppend(r0, last);
        r0 + [last]
  }

  lemma IdsAppend(ps: seq<ProductRow>, x: ProductRow)
    ensures Ids(ps + [x]) == Ids(ps) + {x.id}
  {
    var r := ps + [x];
    assert forall i :: 0 <= i < |ps| ==> r[i] == ps[i];
    assert r[|ps|] == x;
  }

  /** Deleting rows keeps the rest in order, so ascending ids survive. */
  lemma {:induction false} DeleteRowsKeepsIdsAscending(ps: seq<ProductRow>, id: int)
    requires IdsAscending(ps)
    ensures IdsAscending(DeleteRowsWithId(ps, id))
  {
    if |ps| > 0 {
      var init, last := ps[..|ps| - 1], ps[|ps| - 1];
      assert ps == init + [last];
      DeleteRowsKeepsIdsAscending(init, id);
      var r0 := DeleteRowsWithId(init, id);
      if last.id != id {
        var r := r0 + [last];
        forall i, j | 0 <= i < j < |r| ensures r[i].id < r[j].id {
          assert r[i] == r0[i] && r0[i] in init;
          if j < |r0| {
            assert r[j] == r0[j];
          } else {
            var k :| 0 <= k < |init| && init[k] == r0[i];
            assert ps[k] == init[k];
          }
        }
      }
    }
  }

  /** Deleting rows keeps urls unique. */
  lemma {:induction false} DeleteRowsKeepsUrlsUnique(ps: seq<ProductRow>, id: int)
    requires UrlsUnique(ps)
    ensures UrlsUnique(DeleteRowsWithId(ps, id))
  {
    if |ps| > 0 {
      var init, last := ps[..|ps| - 1], ps[|ps| - 1];
      assert ps == init + [last];
      DeleteRowsKeepsUrlsUnique(init, id);
      var r0 := DeleteRowsWithId(init, id);
      if last.id != id {
        var r := r0 + [last];
        assert forall row :: row in init ==> row.url != last.url;
        assert forall i :: 0 <= i < |r0| ==> r[i] == r0[i] && r0[i].url != last.url;
        assert r[|r0|] == last;
      }
    }
  }

  lemma DeleteRowsKeepsRowsValid(ps: seq<ProductRow>, id: int, nextId: int)
    requires RowsValid(ps, nextId)
    ensures RowsValid(DeleteRowsWithId(ps, id), nextId)
  {
    DeleteRowsKeepsIdsAscending(ps, id);
    DeleteRowsKeepsUrlsUnique(ps, id);
    var r := DeleteRowsWithId(ps, id);
    assert forall i :: 0 <= i < |r| ==> r[i] in ps;
  }
}

=== FILE: history_order.dfy ===
/** `ORDER BY checked_at ASC` over the points of one product: a stable
    insertion sort on the clock value. SQL leaves the order of equal
    timestamps open; insertion order is one order it allows. */
module HistoryOrder {
  import opened Db

  lemma ChronologicalCons(a: PricePoint, rest: seq<PricePoint>)
    requires Chronological(rest)
    requires forall y :: y in rest ==> a.checkedAt <= y.checkedAt
    ensures Chronological([a] + rest)
  {
    var r := [a] + rest;
    assert forall j :: 1 <= j < |r| ==> r[j] == rest[j - 1];
  }

  lemma HeadFirst(t: seq<PricePoint>)
    requires Chronological(t) && |t| > 0
    ensures forall y :: y in t[1..] ==> t[0].checkedAt <= y.checkedAt
  {
    assert forall k :: 0 <= k < |t| - 1 ==> t[1..][k] == t[k + 1];
  }

  /** Places `x` before the first point that is not earlier than it. */
  function InsertByTime(x: PricePoint, t: seq<PricePoint>): (r: seq<PricePoint>)
    requires Chronological(t)
    ensures Chronological(r)
    ensures multiset(r) == multiset(t) + multiset{x}
    ensures |t| == 0 || x.checkedAt <= t[0].checkedAt ==> r == [x] + t
  {
    if |t| == 0 || x.checkedAt <= t[0].checkedAt then
      ChronologicalCons(x, t);
      [x] + t
    else
      var rest := InsertByTime(x, t[1..]);
      InsertAfterHead(x, t, rest);
      [t[0]] + rest
  }

  /** Keeping the earlier head in front of the insertion into the tail. */
  lemma InsertAfterHead(x: PricePoint, t: seq<PricePoint>, rest: seq<PricePoint>)
    requires Chronological(t) && |t| > 0 && t[0].checkedAt < x.checkedAt
    requires Chronological(rest) && multiset(rest) == multiset(t[1..]) + multiset{x}
    ensures Chronological([t[0]] + rest)
    ensures multiset([t[0]] + rest) == multiset(t) + multiset{x}
  {
    assert t == [t[0]] + t[1..];
    HeadFirst(t);
    forall y | y in rest ensures t[0].checkedAt <= y.checkedAt {
      assert y in multiset(t[1..]) + multiset{x};
    }
    ChronologicalCons(t[0], rest);
  }

  /** The points sorted by `checkedAt`, keeping insertion order among equal
      timestamps. */
  function SortByTime(xs: seq<PricePoint>): (r: seq<PricePoint>)
    ensures Chronological(r)
    ensures multiset(r) == multiset(xs)
    ensures |r| == |xs|
    ensures Chronological(xs) ==> r == xs
  {
    if |xs| == 0 then []
    else
      var rest := SortByTime(xs[1..]);
      SortStep(xs, rest);
      InsertByTime(xs[0], rest)
  }

  /** Inserting the first point into the sorted tail sorts the whole, and
      changes nothing when the points were already in order. */
  lemma SortStep(xs: seq<PricePoint>, rest: seq<PricePoint>)
    requires |xs| > 0
    requires Chronological(rest) && multiset(rest) == multiset(xs[1..])
    requires Chronological(xs[1..]) ==> rest == xs[1..]
    ensures multiset(InsertByTime(xs[0], rest)) == multiset(xs)
    ensures |InsertByTime(xs[0], rest)| == |xs|
    ensures Chronological(xs) ==> InsertByTime(xs[0], rest) == xs
  {
    var r := InsertByTime(xs[0], rest);
    assert multiset(r) == multiset(xs) by {
      assert xs == [xs[0]] + xs[1..];
    }
    assert |r| == |multiset(r)|;
    if Chronological(xs) {
      SortStepInOrder(xs, rest);
    }
  }

  lemma SortStepInOrder(xs: seq<PricePoint>, rest: seq<PricePoint>)
    requires |xs| > 0 && Chronological(xs)
    requires Chronological(rest)
    requires Chronological(xs[1..]) ==> rest == xs[1..]
    ensures InsertByTime(xs[0], rest) == xs
  {
    assert Chronological(xs[1..]) by {
      assert forall k :: 0 <= k < |xs| - 1 ==> xs[1..][k] == xs[k + 1];
    }
    if |rest| > 0 {
      assert rest[0] == xs[1];
    }
    assert [xs[0]] + xs[1..] == xs;
  }
}

=== FILE: prelude.dfy ===
/** Shared vocabulary: optional values, results, the clock, and Rust's `i32`
    arithmetic written out over unbounded integers. */
module Prelude {

  datatype Option<T> = None | Some(value: T)

  datatype Result<T, E> = Ok(value: T) | Err(error: E)

  /** A clock reading in whole seconds. The source stores timestamps as
      `%Y-%m-%d %H:%M:%S` text; for four-digit years that text sorts exactly
      like the number of seconds it denotes, so comparisons agree. */
  type Time = int

  const SecondsPerDay: int := 86400

  const MaxI32: int := 0x7fff_ffff
  const MinI32: int := -0x8000_0000

  predicate InI32(x: int) {
    MinI32 <= x <= MaxI32
  }

  /** Two's-complement wrap-around of a release-build `i32` operation. */
  function WrapI32(x: int): (r: int)
    ensures InI32(r)
    ensures (r - x) % 0x1_0000_0000 == 0
    ensures InI32(x) ==> r == x
  {
    (x - MinI32) % 0x1_0000_0000 + MinI32
  }

  function Abs(x: int): nat {
    if x < 0 then -x else x
  }

  /** Rust's integer `/`: the quotient is truncated toward zero, unlike
      Dafny's Euclidean `/` on `int`. Its magnitude is the floor of the
      magnitudes' quotient and its sign is that of the dividend. */
  function TruncDiv(a: int, b: int): (q: int)
    requires b > 0
    ensures Abs(q) == Abs(a) / b
    ensures a >= 0 ==> q >= 0
    ensures a <= 0 ==> q <= 0
  {
    if a >= 0 then a / b else -((-a) / b)
  }
}

=== FILE: reconcile.dfy ===
/** Merging one fetch result into the store: the `save_product` plus
    `save_price_history` pair that `cmd_add`, `add_product` and two of the
    three sweeps share. Everything the outside world decides for one product
    (the page, which statements fail, the clock) is one `Attempt`. */
module Reconcile {
  import opened Prelude
  import Scraper
  import opened Db

  datatype Attempt = Attempt(response: Scraper.Response, upsert: UpsertFault, appendFails: bool, at: Time)

  datatype Outcome =
    | FetchFailed(error: Scraper.FetchError)
    | SaveFailed(product: Scraper.Product)
    | HistoryFailed(product: Scraper.Product)
    | Recorded(product: Scraper.Product, id: int)

  datatype Reconciled = Reconciled(store: Store, outcome: Outcome)

  function Fetch(url: string, a: Attempt): Result<Scraper.Product, Scraper.FetchError> {
    Scraper.FetchAmazonPrice(url, a.response)
  }

  predicate FetchOk(url: string, a: Attempt) {
    Fetch(url, a).Ok?
  }

  /** The fetch and both writes after it succeed. */
  predicate Succeeds(url: string, a: Attempt) {
    FetchOk(url, a) && a.upsert == NoFault && !a.appendFails
  }

  /** The upsert statement runs, whatever happens after it. */
  predicate RowRewritten(url: string, a: Attempt) {
    FetchOk(url, a) && a.upsert != InsertFails
  }

  /** A snapshot row still describes the store: its url is present under
      its id. */
  predicate Present(s: Store, row: ProductRow) {
    RowByUrl(s, row.url).Some? && RowByUrl(s, row.url).value.id == row.id
  }

  /** Every snapshot row is still in the store under its snapshot id. */
  predicate AllPresent(s: Store, snap: seq<ProductRow>) {
    forall j :: 0 <= j < |snap| ==> Present(s, snap[j])
  }

  /** The rest of a snapshot with unique urls and ascending ids keeps both,
      and holds neither the first row's url nor its id. */
  lemma TailFacts(snap: seq<ProductRow>)
    requires |snap| > 0
    requires UrlsUnique(snap) && IdsAscending(snap)
    ensures UrlsUnique(snap[1..]) && IdsAscending(snap[1..])
    ensures snap[0].url !in Urls(snap[1..]) && snap[0].id !in Ids(snap[1..])
    ensures forall j :: 1 <= j < |snap| ==> snap[1..][j - 1] == snap[j]
  {
    assert forall j :: 1 <= j < |snap| ==> snap[1..][j - 1] == snap[j];
  }

  /** The row of a tracked product after one attempt. */
  function RowAfter(cur: ProductRow, url: string, a: Attempt): ProductRow
  {
    if RowRewritten(url, a) then Refreshed(cur, Fetch(url, a).value) else cur
  }

  /** The history points one strict attempt adds for a snapshot row. */
  function PointsAdded(row: ProductRow, a: Attempt): seq<PricePoint> {
    if Succeeds(row.url, a) then [PricePoint(row.id, Fetch(row.url, a).value.price, a.at)] else []
  }

  /** The clock never runs backwards: the attempts' times do not decrease and
      no stored point is later than the first of them. */
  predicate Ticks(h: seq<PricePoint>, attempts: seq<Attempt>) {
    && (|attempts| > 0 ==> NotAfter(h, attempts[0].at))
    && (forall j, k :: 0 <= j < k < |attempts| ==> attempts[j].at <= attempts[k].at)
  }

  /** After the first attempt the clock still ticks for the rest, over the
      history that attempt left. */
  lemma TicksAfterFirst(h: seq<PricePoint>, h2: seq<PricePoint>, attempts: seq<Attempt>)
    requires |attempts| > 0
    requires Ticks(h, attempts)
    requires NotAfter(h2, attempts[0].at)
    ensures Ticks(h2, attempts[1..])
  {
  }

  /** `cmd_add` and `add_product`: fetch, upsert, then record the price under
      the id the upsert returned. */
  function AddByUrl(s: Store, url: string, a: Attempt): (r: Reconciled)
    ensures !FetchOk(url, a) ==> r == Reconciled(s, FetchFailed(Fetch(url, a).error))
    ensures r.outcome.Recorded? <==> Succeeds(url, a)
    ensures r.outcome.SaveFailed? <==> FetchOk(url, a) && a.upsert != NoFault
    ensures r.outcome.Recorded? ==>
      var p, id := Fetch(url, a).value, r.outcome.id;
      && r.outcome.product == p
      && RowByUrl(r.store, url).Some?
      && RowByUrl(r.store, url).value.id == id
      && RowByUrl(r.store, url).value.name == p.name
      && RowByUrl(r.store, url).value.currentPrice == p.price
      && PointsOf(r.store.history, id) == PointsOf(s.history, id) + [PricePoint(id, p.price, a.at)]
    ensures forall u :: u != url ==> RowByUrl(r.store, u) == RowByUrl(s, u)
    ensures Extends(s.history, r.store.history)
    ensures FetchOk(url, a) && a.upsert == InsertFails ==> r.store == s
    ensures !r.outcome.Recorded? ==> r.store.history == s.history
    ensures r.outcome.Recorded? ==>
      r.store.history == s.history + [PricePoint(r.outcome.id, r.outcome.product.price, a.at)]
    ensures forall q :: !(r.outcome.Recorded? && q == r.outcome.id) ==>
      PointsOf(r.store.history, q) == PointsOf(s.history, q)
  {
    match Fetch(url, a)
    case Err(e) => Reconciled(s, FetchFailed(e))
    case Ok(p) => SaveFetched(s, p, a.at, a.upsert, a.appendFails)
  }

  /** The two writes of `cmd_add` and `add_product` after a successful fetch:
      the upsert, then the price under the id it returned. */
  function SaveFetched(s: Store, p: Scraper.Product, now: Time, fault: UpsertFault, appendFails: bool): (r: Reconciled)
    ensures r.outcome.Recorded? <==> fault == NoFault && !appendFails
    ensures r.outcome.SaveFailed? <==> fault != NoFault
    ensures !r.outcome.FetchFailed? && r.outcome.product == p
    ensures r.outcome.Recorded? ==>
      var id := r.outcome.id;
      && RowByUrl(r.store, p.url).Some?
      && RowByUrl(r.store, p.url).value.id == id
      && RowByUrl(r.store, p.url).value.name == p.name
      && RowByUrl(r.store, p.url).value.currentPrice == p.price
      && PointsOf(r.store.history, id) == PointsOf(s.history, id) + [PricePoint(id, p.price, now)]
    ensures forall u :: u != p.url ==> RowByUrl(r.store, u) == RowByUrl(s, u)
    ensures Extends(s.history, r.store.history)
    ensures fault == InsertFails ==> r.store == s
    ensures !r.outcome.Recorded? ==> r.store.history == s.history
    ensures r.outcome.Recorded? ==> r.store.history == s.history + [PricePoint(r.outcome.id, p.price, now)]
    ensures forall q :: !(r.outcome.Recorded? && q == r.outcome.id) ==>
      PointsOf(r.store.history, q) == PointsOf(s.history, q)
  {
    var w := SaveProduct(s, p, now, fault);
    if w.result.Err? then Reconciled(w.store, SaveFailed(p))
    else
      var id := w.result.value;
      var h := SavePriceHistory(w.store, id, p.price, now, appendFails);
      if h.result.Err? then Reconciled(h.store, HistoryFailed(p))
      else Reconciled(h.store, Recorded(p, id))
  }

  /** One iteration of `check_all_prices` and of `cmd_check`: the price is
      recorded under the snapshot id, and a `save_product` error skips the
      history write. */
  function StrictStep(s: Store, row: ProductRow, a: Attempt): (r: Reconciled)
    ensures r.outcome.FetchFailed? <==> !FetchOk(row.url, a)
    ensures r.outcome.SaveFailed? <==> FetchOk(row.url, a) && a.upsert != NoFault
    ensures r.outcome.Recorded? <==> Succeeds(row.url, a)
    ensures r.outcome.HistoryFailed? <==> FetchOk(row.url, a) && a.upsert == NoFault && a.appendFails
    ensures !r.outcome.FetchFailed? ==> r.outcome.product == Fetch(row.url, a).value
    ensures r.outcome.Recorded? ==> r.outcome.id == row.id
    ensures !FetchOk(row.url, a) ==> r.store == s
    ensures forall u :: u != row.url ==> RowByUrl(r.store, u) == RowByUrl(s, u)
    ensures forall q :: q != row.id ==> PointsOf(r.store.history, q) == PointsOf(s.history, q)
    ensures Extends(s.history, r.store.history)
  {
    match Fetch(row.url, a)
    case Err(e) => Reconciled(s, FetchFailed(e))
    case Ok(p) =>
      var w := SaveProduct(s, p, a.at, a.upsert);
      if w.result.Err? then Reconciled(w.store, SaveFailed(p))
      else
        var h := SavePriceHistory(w.store, row.id, p.price, a.at, a.appendFails);
        if h.result.Err? then Reconciled(h.store, HistoryFailed(p))
        else Reconciled(h.store, Recorded(p, row.id))
  }

  /** For a row of the snapshot, the id `save_product` returns is the
      snapshot id, so the sweep step does exactly what adding the url does. */
  lemma StrictStepIsAdd(s: Store, row: ProductRow, a: Attempt)
    requires Present(s, row)
    ensures StrictStep(s, row, a) == AddByUrl(s, row.url, a)
  {
    if FetchOk(row.url, a) && a.upsert == NoFault {
      var p := Fetch(row.url, a).value;
      assert SaveProduct(s, p, a.at, a.upsert).result == Ok(row.id);
    }
  }

  /** For a row of the snapshot that is still stored, the step rewrites that
      row, appends to its history only, and hands out no id. */
  lemma StrictStepOnPresent(s: Store, row: ProductRow, a: Attempt)
    requires Present(s, row)
    ensures var r := StrictStep(s, row, a);
      && RowByUrl(r.store, row.url) == Some(RowAfter(RowByUrl(s, row.url).value, row.url, a))
      && PointsOf(r.store.history, row.id) == PointsOf(s.history, row.id) + PointsAdded(row, a)
      && r.store.nextId == s.nextId
      && Ids(r.store.products) == Ids(s.products)
  {
    StrictStepRowOnPresent(s, row, a);
    StrictStepPointsOnPresent(s, row, a);
  }

  lemma StrictStepRowOnPresent(s: Store, row: ProductRow, a: Attempt)
    requires Present(s, row)
    ensures var r := StrictStep(s, row, a);
      && RowByUrl(r.store, row.url) == Some(RowAfter(RowByUrl(s, row.url).value, row.url, a))
      && r.store.nextId == s.nextId
      && Ids(r.store.products) == Ids(s.products)
  {
    var r := StrictStep(s, row, a);
    if FetchOk(row.url, a) && a.upsert != InsertFails {
      var p := Fetch(row.url, a).value;
      var u := Upsert(s, p, a.at).store;
      assert SaveProduct(s, p, a.at, a.upsert).store == u;
      assert RowByUrl(u, row.url) == Some(Refreshed(RowByUrl(s, row.url).value, p));
      assert r.store.products == u.products && r.store.nextId == u.nextId;
    } else if FetchOk(row.url, a) {
      assert r.store == s;
    }
  }

  lemma StrictStepPointsOnPresent(s: Store, row: ProductRow, a: Attempt)
    requires Present(s, row)
    ensures var r := StrictStep(s, row, a);
      PointsOf(r.store.history, row.id) == PointsOf(s.history, row.id) + PointsAdded(row, a)
  {
    if FetchOk(row.url, a) && a.upsert == NoFault {
      var p := Fetch(row.url, a).value;
      var w := SaveProduct(s, p, a.at, a.upsert);
      assert w.result.value == row.id;
    }
  }

  lemma AddByUrlPreservesValid(s: Store, url: string, a: Attempt)
    requires Valid(s)
    requires NotAfter(s.history, a.at)
    ensures Valid(AddByUrl(s, url, a).store)
    ensures NotAfter(AddByUrl(s, url, a).store.history, a.at)
  {
    match Fetch(url, a)
    case Err(_) =>
    case Ok(p) => SaveFetchedPreservesValid(s, p, a.at, a.upsert, a.appendFails);
  }

  /** Saving and recording a fetched product keeps the invariant, whichever
      write fails. */
  lemma SaveFetchedPreservesValid(s: Store, p: Scraper.Product, now: Time, fault: UpsertFault, appendFails: bool)
    requires Valid(s)
    requires NotAfter(s.history, now)
    requires 0 <= p.price <= MaxI32
    ensures Valid(SaveFetched(s, p, now, fault, appendFails).store)
    ensures NotAfter(SaveFetched(s, p, now, fault, appendFails).store.history, now)
  {
    if fault != InsertFails {
      UpsertPreservesValid(s, p, now);
      var u := Upsert(s, p, now);
      if fault == NoFault && !appendFails {
        AppendPreservesValid(u.store, u.id, p.price, now);
      }
    }
  }

  lemma StrictStepPreservesValid(s: Store, row: ProductRow, a: Attempt)
    requires Valid(s)
    requires Present(s, row)
    requires NotAfter(s.history, a.at)
    ensures Valid(StrictStep(s, row, a).store)
    ensures NotAfter(StrictStep(s, row, a).store.history, a.at)
  {
    StrictStepIsAdd(s, row, a);
    AddByUrlPreservesValid(s, row.url, a);
  }
}

=== FILE: scheduler.dfy ===
/** The hourly sweep of src/scheduler.rs (`check_all_prices`): snapshot the
    product list, then fetch and reconcile each product in snapshot order,
    counting successes and errors. A per-product failure never stops the
    sweep; only a failure to list the products does. The cron wiring that
    calls it is not modelled. */
module Scheduler {
  import opened Prelude
  import opened Db
  import opened Reconcile

  datatype Summary = Summary(successes: nat, errors: nat)

  datatype Tally = Tally(store: Store, summary: Summary)

  datatype SweepRun = SweepRun(store: Store, result: Result<Summary, StoreError>)

  /** How many attempts succeed, read off the oracle alone. */
  function CountSucceeding(snap: seq<ProductRow>, attempts: seq<Attempt>): nat
    requires |attempts| == |snap|
  {
    if |snap| == 0 then 0
    else (if Succeeds(snap[0].url, attempts[0]) then 1 else 0) + CountSucceeding(snap[1..], attempts[1..])
  }

  /** The loop over the snapshot. */
  function Sweep(s: Store, snap: seq<ProductRow>, attempts: seq<Attempt>): (r: Tally)
    requires |attempts| == |snap|
    ensures r.summary.successes + r.summary.errors == |snap|
    ensures r.summary.successes == CountSucceeding(snap, attempts)
    ensures Extends(s.history, r.store.history)
    ensures forall u :: u !in Urls(snap) ==> RowByUrl(r.store, u) == RowByUrl(s, u)
    ensures forall q :: q !in Ids(snap) ==> PointsOf(r.store.history, q) == PointsOf(s.history, q)
    decreases |snap|
  {
    if |snap| == 0 then Tally(s, Summary(0, 0))
    else
      var st := StrictStep(s, snap[0], attempts[0]);
      var rest := Sweep(st.store, snap[1..], attempts[1..]);
      assert forall j :: 0 <= j < |snap| - 1 ==> snap[1..][j] == snap[j + 1];
      ExtendsTrans(s.history, st.store.history, rest.store.history);
      var sm := rest.summary;
      Tally(rest.store,
            if st.outcome.Recorded? then sm.(successes := sm.successes + 1)
            else sm.(errors := sm.errors + 1))
  }

  /** `check_all_prices`. `listFails` stands for the `SELECT` that takes the
      snapshot failing; the oracle holds one attempt per snapshot row. */
  function CheckAllPrices(s: Store, listFails: bool, attempts: seq<Attempt>): (r: SweepRun)
    requires |attempts| == |s.products|
    ensures listFails ==> r.store == s && r.result.Err?
    ensures !listFails ==> r.result.Ok?
    ensures r.result.Ok? ==> r.result.value.successes + r.result.value.errors == |s.products|
    ensures r.result.Ok? ==> r.result.value.successes == CountSucceeding(s.products, attempts)
    ensures Extends(s.history, r.store.history)
  {
    if listFails then SweepRun(s, Err(StoreError))
    else
      var t := Sweep(s, s.products, attempts);
      SweepRun(t.store, Ok(t.summary))
  }

  lemma {:induction false} SweepReconcilesRow(s: Store, snap: seq<ProductRow>, attempts: seq<Attempt>, i: nat)
    requires |attempts| == |snap|
    requires UrlsUnique(snap) && IdsAscending(snap)
    requires AllPresent(s, snap)
    requires i < |snap|
    ensures RowByUrl(Sweep(s, snap, attempts).store, snap[i].url) ==
      Some(RowAfter(RowByUrl(s, snap[i].url).value, snap[i].url, attempts[i]))
    decreases i
  {
    var st := StrictStep(s, snap[0], attempts[0]);
    TailFacts(snap);
    assert Present(s, snap[0]);
    if i > 0 {
      StepKeepsTailPresent(s, snap, attempts[0]);
      SweepReconcilesRow(st.store, snap[1..], attempts[1..], i - 1);
      assert snap[1..][i - 1] == snap[i] && attempts[1..][i - 1] == attempts[i];
      assert snap[i].url != snap[0].url;
    }
  }

  lemma {:induction false} SweepReconcilesHistory(s: Store, snap: seq<ProductRow>, attempts: seq<Attempt>, i: nat)
    requires |attempts| == |snap|
    requires UrlsUnique(snap) && IdsAscending(snap)
    requires AllPresent(s, snap)
    requires i < |snap|
    ensures PointsOf(Sweep(s, snap, attempts).store.history, snap[i].id) ==
      PointsOf(s.history, snap[i].id) + PointsAdded(snap[i], attempts[i])
    decreases i
  {
    var st := StrictStep(s, snap[0], attempts[0]);
    var rest := Sweep(st.store, snap[1..], attempts[1..]);
    assert Sweep(s, snap, attempts).store == rest.store;
    TailFacts(snap);
    assert Present(s, snap[0]);
    var id := snap[i].id;
    if i == 0 {
      assert PointsOf(rest.store.history, id) == PointsOf(st.store.history, id);
      StrictStepPointsOnPresent(s, snap[0], attempts[0]);
    } else {
      StepKeepsTailPresent(s, snap, attempts[0]);
      SweepReconcilesHistory(st.store, snap[1..], attempts[1..], i - 1);
      assert snap[1..][i - 1] == snap[i] && attempts[1..][i - 1] == attempts[i];
      assert PointsOf(st.store.history, id) == PointsOf(s.history, id) by {
        assert id != snap[0].id;
      }
    }
  }

  /** Failure isolation: each snapshot product ends up exactly as its own
      attempt leaves it, whatever happened to the others. A failed fetch
      leaves the row and its history untouched. */
  lemma CheckAllPricesReconciles(s: Store, attempts: seq<Attempt>, i: nat)
    requires Valid(s)
    requires |attempts| == |s.products|
    requires i < |s.products|
    ensures
      var row, final := s.products[i], CheckAllPrices(s, false, attempts).store;
      && RowByUrl(final, row.url) == Some(RowAfter(row, row.url, attempts[i]))
      && PointsOf(final.history, row.id) == PointsOf(s.history, row.id) + PointsAdded(row, attempts[i])
  {
    forall j | 0 <= j < |s.products| ensures Present(s, s.products[j]) {
      RowByUrlAt(s, j);
    }
    SweepReconcilesRow(s, s.products, attempts, i);
    SweepReconcilesHistory(s, s.products, attempts, i);
    RowByUrlAt(s, i);
  }

  /** A strict step on the first snapshot row keeps the later rows present. */
  lemma StepKeepsTailPresent(s: Store, snap: seq<ProductRow>, a: Attempt)
    requires |snap| > 0
    requires UrlsUnique(snap)
    requires AllPresent(s, snap)
    ensures AllPresent(StrictStep(s, snap[0], a).store, snap[1..])
  {
    var st := StrictStep(s, snap[0], a);
    var tail := snap[1..];
    forall j | 0 <= j < |tail| ensures Present(st.store, tail[j]) {
      assert tail[j] == snap[j + 1];
      assert Present(s, snap[j + 1]);
    }
  }

  lemma {:induction false} SweepPreservesValid(s: Store, snap: seq<ProductRow>, attempts: seq<Attempt>)
    requires |attempts| == |snap|
    requires Valid(s)
    requires UrlsUnique(snap)
    requires AllPresent(s, snap)
    requires Ticks(s.history, attempts)
    ensures Valid(Sweep(s, snap, attempts).store)
    decreases |snap|
  {
    if |snap| > 0 {
      var st := StrictStep(s, snap[0], attempts[0]);
      StrictStepPreservesValid(s, snap[0], attempts[0]);
      StepKeepsTailPresent(s, snap, attempts[0]);
      TicksAfterFirst(s.history, st.store.history, attempts);
      assert UrlsUnique(snap[1..]) by {
        assert forall j :: 0 <= j < |snap| - 1 ==> snap[1..][j] == snap[j + 1];
      }
      SweepPreservesValid(st.store, snap[1..], attempts[1..]);
    }
  }

  /** A sweep over a valid store leaves a valid store. */
  lemma CheckAllPricesPreservesValid(s: Store, listFails: bool, attempts: seq<Attempt>)
    requires Valid(s)
    requires |attempts| == |s.products|
    requires Ticks(s.history, attempts)
    ensures Valid(CheckAllPrices(s, listFails, attempts).store)
  {
    forall j | 0 <= j < |s.products| ensures Present(s, s.products[j]) {
      RowByUrlAt(s, j);
    }
    if !listFails {
      SweepPreservesValid(s, s.products, attempts);
    }
  }
}

=== FILE: scraper.dfy ===
/** The product page scraper (src/scraper.rs). Downloading the page and
    running the CSS selectors is abstracted into a `Response`: what the two
    selectors found, or that the request failed. What is modelled exactly is
    the shaping of the result: trimming the title and turning the price text
    into an `i32`. */
module Scraper {
  import opened Prelude

  /** The scraper's result record: `name`, `price`, `url`. */
  datatype Product = Product(name: string, price: int, url: string)

  /** `title` is the text of the first `#productTitle` element and
      `priceText` the text of the first `.a-price .a-offscreen` element;
      `None` when the page has no such element. */
  datatype Response =
    | RequestFailed
    | Document(title: Option<string>, priceText: Option<string>)

  datatype FetchError = RequestError | TitleNotFound | PriceNotFound | PriceUnparseable

  // ---------------------------------------------------------------------
  // Characters

  predicate IsAsciiDigit(c: char) {
    '0' <= c <= '9'
  }

  /** Rust's `char::is_numeric`: general category Nd, Nl or No, as of
      Unicode 15.0. */
  predicate IsNumeric(c: char) {
    IsAsciiDigit(c) || IsOtherNumeric(c)
  }

  /** The numeric characters outside ASCII: the first range of the table
      below starts at U+00B2. */
  predicate IsOtherNumeric(c: char) {
    '\U{B2}' <= c && NumericFrom(c, 0)
  }

  /** `c` lies in one of the ranges of the table from the `k`th on. */
  predicate NumericFrom(c: char, k: nat)
    decreases NumericRangeCount - k
  {
    k < NumericRangeCount && (InRange(c, NumericRange(k)) || NumericFrom(c, k + 1))
  }

  predicate InRange(c: char, range: (char, char)) {
    range.0 <= c <= range.1
  }

  const NumericRangeCount := 136

  /** The `k`th code-point range of general category Nd, Nl and No above
      ASCII, in ascending order, as of Unicode 15.0. */
  function NumericRange(k: nat): (char, char)
    requires k < NumericRangeCount
  {
    match k
    case 0 => ('\U{B2}', '\U{B3}')
    case 1 => ('\U{B9}', '\U{B9}')
    case 2 => ('\U{BC}', '\U{BE}')
    case 3 => ('\U{660}', '\U{669}')
    case 4 => ('\U{6F0}', '\U{6F9}')
    case 5 => ('\U{7C0}', '\U{7C9}')
    case 6 => ('\U{966}', '\U{96F}')
    case 7 => ('\U{9E6}', '\U{9EF}')
    case 8 => ('\U{9F4}', '\U{9F9}')
    case 9 => ('\U{A66}', '\U{A6F}')
    case 10 => ('\U{AE6}', '\U{AEF}')
    case 11 => ('\U{B66}', '\U{B6F}')
    case 12 => ('\U{B72}', '\U{B77}')
    case 13 => ('\U{BE6}', '\U{BF2}')
    case 14 => ('\U{C66}', '\U{C6F}')
    case 15 => ('\U{C78}', '\U{C7E}')
    case 16 => ('\U{CE6}', '\U{CEF}')
    case 17 => ('\U{D58}', '\U{D5E}')
    case 18 => ('\U{D66}', '\U{D78}')
    case 19 => ('\U{DE6}', '\U{DEF}')
    case 20 => ('\U{E50}', '\U{E59}')
    case 21 => ('\U{ED0}', '\U{ED9}')
    case 22 => ('\U{F20}', '\U{F33}')
    case 23 => ('\U{1040}', '\U{1049}')
    case 24 => ('\U{1090}', '\U{1099}')
    case 25 => ('\U{1369}', '\U{137C}')
    case 26 => ('\U{16EE}', '\U{16F0}')
    case 27 => ('\U{17E0}', '\U{17E9}')
    case 28 => ('\U{17F0}', '\U{17F9}')
    case 29 => ('\U{1810}', '\U{1819}')
    case 30 => ('\U{1946}', '\U{194F}')
    case 31 => ('\U{19D0}', '\U{19DA}')
    case 32 => ('\U{1A80}', '\U{1A89}')
    case 33 => ('\U{1A90}', '\U{1A99}')
    case 34 => ('\U{1B50}', '\U{1B59}')
    case 35 => ('\U{1BB0}', '\U{1BB9}')
    case 36 => ('\U{1C40}', '\U{1C49}')
    case 37 => ('\U{1C50}', '\U{1C59}')
    case 38 => ('\U{2070}', '\U{2070}')
    case 39 => ('\U{2074}', '\U{2079}')
    case 40 => ('\U{2080}', '\U{2089}')
    case 41 => ('\U{2150}', '\U{2182}')
    case 42 => ('\U{2185}', '\U{2189}')
    case 43 => ('\U{2460}', '\U{249B}')
    case 44 => ('\U{24EA}', '\U{24FF}')
    case 45 => ('\U{2776}', '\U{2793}')
    case 46 => ('\U{2CFD}', '\U{2CFD}')
    case 47 => ('\U{3007}', '\U{3007}')
    case 48 => ('\U{3021}', '\U{3029}')
    case 49 => ('\U{3038}', '\U{303A}')
    case 50 => ('\U{3192}', '\U{3195}')
    case 51 => ('\U{3220}', '\U{3229}')
    case 52 => ('\U{3248}', '\U{324F}')
    case 53 => ('\U{3251}', '\U{325F}')
    case 54 => ('\U{3280}', '\U{3289}')
    case 55 => ('\U{32B1}', '\U{32BF}')
    case 56 => ('\U{A620}', '\U{A629}')
    case 57 => ('\U{A6E6}', '\U{A6EF}')
    case 58 => ('\U{A830}', '\U{A835}')
    case 59 => ('\U{A8D0}', '\U{A8D9}')
    case 60 => ('\U{A900}', '\U{A909}')
    case 61 => ('\U{A9D0}', '\U{A9D9}')
    case 62 => ('\U{A9F0}', '\U{A9F9}')
    case 63 => ('\U{AA50}', '\U{AA59}')
    case 64 => ('\U{ABF0}', '\U{ABF9}')
    case 65 => ('\U{FF10}', '\U{FF19}')
    case 66 => ('\U{10107}', '\U{10133}')
    case 67 => ('\U{10140}', '\U{10178}')
    case 68 => ('\U{1018A}', '\U{1018B}')
    case 69 => ('\U{102E1}', '\U{102FB}')
    case 70 => ('\U{10320}', '\U{10323}')
    case 71 => ('\U{10341}', '\U{10341}')
    case 72 => ('\U{1034A}', '\U{1034A}')
    case 73 => ('\U{103D1}', '\U{103D5}')
    case 74 => ('\U{104A0}', '\U{104A9}')
    case 75 => ('\U{10858}', '\U{1085F}')
    case 76 => ('\U{10879}', '\U{1087F}')
    case 77 => ('\U{108A7}', '\U{108AF}')
    case 78 => ('\U{108FB}', '\U{108FF}')
    case 79 => ('\U{10916}', '\U{1091B}')
    case 80 => ('\U{109BC}', '\U{109BD}')
    case 81 => ('\U{109C0}', '\U{109CF}')
    case 82 => ('\U{109D2}', '\U{109FF}')
    case 83 => ('\U{10A40}', '\U{10A48}')
    case 84 => ('\U{10A7D}', '\U{10A7E}')
    case 85 => ('\U{10A9D}', '\U{10A9F}')
    case 86 => ('\U{10AEB}', '\U{10AEF}')
    case 87 => ('\U{10B58}', '\U{10B5F}')
    case 88 => ('\U{10B78}', '\U{10B7F}')
    case 89 => ('\U{10BA9}', '\U{10BAF}')
    case 90 => ('\U{10CFA}', '\U{10CFF}')
    case 91 => ('\U{10D30}', '\U{10D39}')
    case 92 => ('\U{10E60}', '\U{10E7E}')
    case 93 => ('\U{10F1D}', '\U{10F26}')
    case 94 => ('\U{10F51}', '\U{10F54}')
    case 95 => ('\U{10FC5}', '\U{10FCB}')
    case 96 => ('\U{11052}', '\U{1106F}')
    case 97 => ('\U{110F0}', '\U{110F9}')
    case 98 => ('\U{11136}', '\U{1113F}')
    case 99 => ('\U{111D0}', '\U{111D9}')
    case 100 => ('\U{111E1}', '\U{111F4}')
    case 101 => ('\U{112F0}', '\U{112F9}')
    case 102 => ('\U{11450}', '\U{11459}')
    case 103 => ('\U{114D0}', '\U{114D9}')
    case 104 => ('\U{11650}', '\U{11659}')
    case 105 => ('\U{116C0}', '\U{116C9}')
    case 106 => ('\U{11730}', '\U{1173B}')
    case 107 => ('\U{118E0}', '\U{118F2}')
    case 108 => ('\U{11950}', '\U{11959}')
    case 109 => ('\U{11C50}', '\U{11C6C}')
    case 110 => ('\U{11D50}', '\U{11D59}')
    case 111 => ('\U{11DA0}', '\U{11DA9}')
    case 112 => ('\U{11F50}', '\U{11F59}')
    case 113 => ('\U{11FC0}', '\U{11FD4}')
    case 114 => ('\U{12400}', '\U{1246E}')
    case 115 => ('\U{16A60}', '\U{16A69}')
    case 116 => ('\U{16AC0}', '\U{16AC9}')
    case 117 => ('\U{16B50}', '\U{16B59}')
    case 118 => ('\U{16B5B}', '\U{16B61}')
    case 119 => ('\U{16E80}', '\U{16E96}')
    case 120 => ('\U{1D2C0}', '\U{1D2D3}')
    case 121 => ('\U{1D2E0}', '\U{1D2F3}')
    case 122 => ('\U{1D360}', '\U{1D378}')
    case 123 => ('\U{1D7CE}', '\U{1D7FF}')
    case 124 => ('\U{1E140}', '\U{1E149}')
    case 125 => ('\U{1E2F0}', '\U{1E2F9}')
    case 126 => ('\U{1E4F0}', '\U{1E4F9}')
    case 127 => ('\U{1E8C7}', '\U{1E8CF}')
    case 128 => ('\U{1E950}', '\U{1E959}')
    case 129 => ('\U{1EC71}', '\U{1ECAB}')
    case 130 => ('\U{1ECAD}', '\U{1ECAF}')
    case 131 => ('\U{1ECB1}', '\U{1ECB4}')
    case 132 => ('\U{1ED01}', '\U{1ED2D}')
    case 133 => ('\U{1ED2F}', '\U{1ED3D}')
    case 134 => ('\U{1F100}', '\U{1F10C}')
    case _ => ('\U{1FBF0}', '\U{1FBF9}')
  }


  /** Rust's `char::is_whitespace`: the Unicode White_Space property. */
  predicate IsWhitespace(c: char) {
    || '\t' <= c <= '\r'
    || c == ' '
    || c == '\U{85}'
    || c == '\U{A0}'
    || c == '\U{1680}'
    || '\U{2000}' <= c <= '\U{200A}'
    || c == '\U{2028}' || c == '\U{2029}'
    || c == '\U{202F}' || c == '\U{205F}'
    || c == '\U{3000}'
  }

  predicate AllWhitespace(s: string) {
    forall i :: 0 <= i < |s| ==> IsWhitespace(s[i])
  }

  predicate HasAsciiDigit(s: string) {
    exists i :: 0 <= i < |s| && IsAsciiDigit(s[i])
  }

  predicate AllAsciiDigits(s: string) {
    forall i :: 0 <= i < |s| ==> IsAsciiDigit(s[i])
  }

  // ---------------------------------------------------------------------
  // Decimal text

  function DigitValue(c: char): (d: int)
    requires IsAsciiDigit(c)
    ensures 0 <= d <= 9
  {
    c as int - '0' as int
  }

  function DigitChar(d: int): (c: char)
    requires 0 <= d <= 9
    ensures IsAsciiDigit(c) && DigitValue(c) == d
  {
    ('0' as int + d) as char
  }

  /** The number an ASCII digit string denotes, most significant first. */
  function DigitsValue(ds: string): (n: nat)
    requires AllAsciiDigits(ds)
  {
    if |ds| == 0 then 0
    else DigitsValue(ds[..|ds| - 1]) * 10 + DigitValue(ds[|ds| - 1])
  }

  /** Shortest decimal text of `n` (Rust's `to_string` on a non-negative integer). */
  function Decimal(n: nat): (s: string)
    ensures |s| > 0 && AllAsciiDigits(s)
  {
    if n < 10 then [DigitChar(n)] else Decimal(n / 10) + [DigitChar(n % 10)]
  }

  /** Rust's `to_string` on an `i32`. */
  function I32ToString(x: int): string {
    if x < 0 then "-" + Decimal(-x) else Decimal(x)
  }

  /** Rust's `str::parse::<i32>`: an optional sign, then one or more ASCII
      digits whose value fits in `i32`. Any other character, an empty digit
      part, or an out-of-range value is an error; the error kind is not
      modelled because every caller discards it. */
  function ParseI32(t: string): (r: Option<int>)
    ensures r.Some? ==> InI32(r.value)
    ensures |t| > 0 && AllAsciiDigits(t) ==> (r.Some? <==> DigitsValue(t) <= MaxI32)
    ensures r.Some? && AllAsciiDigits(t) ==> r.value == DigitsValue(t)
    ensures |t| > 0 && t[0] == '-' && r.Some? ==> r.value <= 0
    ensures |t| > 0 && !IsAsciiDigit(t[0]) && t[0] != '+' && t[0] != '-' ==> r.None?
    ensures !HasAsciiDigit(t) ==> r.None?
  {
    ParseI32Digit(t);
    if |t| == 0 then None
    else if t[0] == '+' || t[0] == '-' then
      var body := t[1..];
      if |body| == 0 || !AllAsciiDigits(body) then None
      else if t[0] == '-' then
        var v: int := DigitsValue(body);
        (if v <= -MinI32 then Some(-v) else None)
      else
        (if DigitsValue(body) <= MaxI32 then Some(DigitsValue(body)) else None)
    else if !AllAsciiDigits(t) || DigitsValue(t) > MaxI32 then None
    else Some(DigitsValue(t))
  }

  /** Only an optional sign followed by ASCII digits parses, so a stray
      character anywhere is an error; a signed text parses to its digits'
      value with that sign exactly when the result fits in `i32`. */
  lemma ParseI32Exact(t: string)
    ensures ParseI32(t).Some? ==>
      || (|t| > 0 && AllAsciiDigits(t))
      || (|t| > 1 && (t[0] == '+' || t[0] == '-') && AllAsciiDigits(t[1..]))
    ensures |t| > 1 && t[0] == '-' && AllAsciiDigits(t[1..]) ==>
      ParseI32(t) == (if DigitsValue(t[1..]) <= -MinI32 then Some(0 - DigitsValue(t[1..])) else None)
    ensures |t| > 1 && t[0] == '+' && AllAsciiDigits(t[1..]) ==>
      ParseI32(t) == (if DigitsValue(t[1..]) <= MaxI32 then Some(DigitsValue(t[1..])) else None)
  {
  }

  /** A text that is digits, possibly after a sign, has a digit. */
  lemma ParseI32Digit(t: string)
    ensures |t| > 0 && AllAsciiDigits(t) ==> HasAsciiDigit(t)
    ensures |t| > 1 && AllAsciiDigits(t[1..]) ==> HasAsciiDigit(t)
  {
    if |t| > 0 && AllAsciiDigits(t) {
      assert IsAsciiDigit(t[0]);
    }
    if |t| > 1 && AllAsciiDigits(t[1..]) {
      assert t[1..][0] == t[1];
    }
  }

  lemma {:induction false} DecimalValue(n: nat)
    ensures DigitsValue(Decimal(n)) == n
  {
    if n >= 10 {
      var s := Decimal(n);
      assert s[..|s| - 1] == Decimal(n / 10);
      DecimalValue(n / 10);
    }
  }

  /** Formatting an `i32` and parsing it back gives the same number. */
  lemma ParseI32RoundTrip(x: int)
    requires InI32(x)
    ensures ParseI32(I32ToString(x)) == Some(x)
  {
    if x < 0 {
      var t := I32ToString(x);
      assert t[1..] == Decimal(-x);
      DecimalValue(-x);
    } else {
      var t := Decimal(x);
      DecimalValue(x);
      assert t[0] != '+' && t[0] != '-' by { assert IsAsciiDigit(t[0]); }
    }
  }

  // ---------------------------------------------------------------------
  // Price text

  /** The characters of `s` that are numeric, in their original order. */
  function KeepNumeric(s: string): (r: string)
    ensures |r| <= |s|
    ensures forall i :: 0 <= i < |r| ==> IsNumeric(r[i])
    ensures forall c :: c in r <==> c in s && IsNumeric(c)
    ensures |s| == 1 ==> r == (if IsNumeric(s[0]) then s else [])
  {
    if |s| == 0 then []
    else (if IsNumeric(s[0]) then [s[0]] else []) + KeepNumeric(s[1..])
  }

  lemma {:induction false} KeepNumericAppend(a: string, b: string)
    ensures KeepNumeric(a + b) == KeepNumeric(a) + KeepNumeric(b)
  {
    if |a| > 0 {
      assert (a + b)[1..] == a[1..] + b;
      KeepNumericAppend(a[1..], b);
    } else {
      assert a + b == b;
    }
  }

  /** The kept characters never start with a sign, and an ASCII digit among
      them is an ASCII digit of the text. */
  lemma KeepNumericHead(text: string)
    ensures var ds := KeepNumeric(text);
      |ds| > 0 ==> ds[0] != '+' && ds[0] != '-' && (IsAsciiDigit(ds[0]) ==> ds[0] in text)
  {
    var ds := KeepNumeric(text);
    if |ds| > 0 {
      assert ds[0] in ds;
    }
  }

  /** The price conversion of src/scraper.rs: keep the numeric characters and
      parse them as an `i32`. */
  function PriceFromText(text: string): (r: Option<int>)
    ensures
      var ds := KeepNumeric(text);
      r.Some? <==> |ds| > 0 && AllAsciiDigits(ds) && DigitsValue(ds) <= MaxI32
    ensures
      var ds := KeepNumeric(text);
      r.Some? ==> AllAsciiDigits(ds) && r.value == DigitsValue(ds)
    ensures r.Some? ==> 0 <= r.value <= MaxI32
    ensures !HasAsciiDigit(text) ==> r.None?
  {
    var ds := KeepNumeric(text);
    KeepNumericHead(text);
    ParseI32(ds)
  }

  /** Inserts a comma before every group of three digits counted from the
      right, as Amazon prints prices. */
  function Grouped(ds: string): string {
    if |ds| <= 3 then ds else Grouped(ds[..|ds| - 3]) + "," + ds[|ds| - 3..]
  }

  lemma {:induction false} KeepNumericOfDigits(ds: string)
    requires AllAsciiDigits(ds)
    ensures KeepNumeric(ds) == ds
  {
    if |ds| > 0 {
      KeepNumericOfDigits(ds[1..]);
    }
  }

  lemma KeepNumericDropsComma(a: string)
    ensures KeepNumeric(a + ",") == KeepNumeric(a)
  {
    KeepNumericAppend(a, ",");
    assert KeepNumeric(",") == [];
  }

  lemma {:induction false} KeepNumericGrouped(ds: string)
    requires AllAsciiDigits(ds)
    ensures KeepNumeric(Grouped(ds)) == ds
  {
    if |ds| <= 3 {
      KeepNumericOfDigits(ds);
    } else {
      var hi, lo := ds[..|ds| - 3], ds[|ds| - 3..];
      assert hi + lo == ds;
      assert KeepNumeric((Grouped(hi) + ",") + lo) == ds by {
        KeepNumericGrouped(hi);
        KeepNumericOfDigits(lo);
        KeepNumericGroupStep(Grouped(hi), hi, lo);
      }
      assert Grouped(ds) == (Grouped(hi) + ",") + lo;
    }
  }

  /** One step of the grouping: a group of digits after a comma. */
  lemma KeepNumericGroupStep(g: string, hi: string, lo: string)
    requires KeepNumeric(g) == hi && KeepNumeric(lo) == lo
    ensures KeepNumeric((g + ",") + lo) == hi + lo
  {
    KeepNumericDropsComma(g);
    KeepNumericAppend(g + ",", lo);
  }

  /** How a shop page shows a price: a yen sign and comma-grouped digits. */
  function YenText(n: nat): string {
    "\U{A5}" + Grouped(Decimal(n))
  }

  /** A price shown as `¥1,280` converts back to 1280. */
  lemma PriceFromYenText(n: nat)
    requires n <= MaxI32
    ensures PriceFromText(YenText(n)) == Some(n)
  {
    KeepNumericOfYenText(n);
    DecimalValue(n);
  }

  lemma KeepNumericOfYenText(n: nat)
    ensures KeepNumeric(YenText(n)) == Decimal(n)
  {
    var ds := Decimal(n);
    KeepNumericAppend("\U{A5}", Grouped(ds));
    KeepNumericGrouped(ds);
    YenSignDropped();
  }

  lemma YenSignDropped()
    ensures KeepNumeric("\U{A5}") == []
  {
    assert !IsNumeric('\U{A5}');
  }

  /** A numeric character that is not an ASCII digit (a fullwidth or a Thai
      digit, a superscript, a fraction) survives the filter and then makes
      the parse fail, wherever it stands in the text. */
  lemma NonAsciiNumericRejected(text: string, i: nat)
    requires i < |text| && IsOtherNumeric(text[i])
    ensures PriceFromText(text) == None
  {
    var ds := KeepNumeric(text);
    assert text[i] in text;
    assert text[i] in ds;
    var k :| 0 <= k < |ds| && ds[k] == text[i];
    assert !AllAsciiDigits(ds);
  }

  // ---------------------------------------------------------------------
  // Title text

  /** `str::trim_start`. */
  function TrimStart(s: string): (r: string)
    ensures |r| <= |s| && r == s[|s| - |r|..]
    ensures forall i :: 0 <= i < |s| - |r| ==> IsWhitespace(s[i])
    ensures |r| > 0 ==> !IsWhitespace(r[0])
  {
    if |s| > 0 && IsWhitespace(s[0]) then TrimStart(s[1..]) else s
  }

  /** `str::trim_end`. */
  function TrimEnd(s: string): (r: string)
    ensures |r| <= |s| && r == s[..|r|]
    ensures forall i :: |r| <= i < |s| ==> IsWhitespace(s[i])
    ensures |r| > 0 ==> !IsWhitespace(r[|r| - 1])
  {
    if |s| > 0 && IsWhitespace(s[|s| - 1]) then TrimEnd(s[..|s| - 1]) else s
  }

  /** `r` is the part of `s` starting at index `a`, and every character
      before and after it is whitespace. */
  predicate TrimmedAt(s: string, r: string, a: int) {
    && 0 <= a <= |s| - |r|
    && (forall i {:trigger r[i]} :: 0 <= i < |r| ==> r[i] == s[a + i])
    && (forall i :: 0 <= i < a ==> IsWhitespace(s[i]))
    && (forall i :: a + |r| <= i < |s| ==> IsWhitespace(s[i]))
  }

  /** Neither the first nor the last character is whitespace. */
  predicate NoEdgeWhitespace(s: string) {
    |s| == 0 || (!IsWhitespace(s[0]) && !IsWhitespace(s[|s| - 1]))
  }

  /** `str::trim`: leading and trailing whitespace removed. */
  function Trim(s: string): (r: string)
    ensures NoEdgeWhitespace(r)
    ensures AllWhitespace(s) <==> |r| == 0
  {
    TrimmedSlices(s, TrimStart(s), TrimEnd(TrimStart(s)));
    TrimEnd(TrimStart(s))
  }

  /** The trim is the input with exactly its leading whitespace, as
      `TrimStart` counts it, and its trailing whitespace cut off. */
  lemma TrimKeepsMiddle(s: string)
    ensures TrimmedAt(s, Trim(s), |s| - |TrimStart(s)|)
  {
    TrimmedSlices(s, TrimStart(s), TrimEnd(TrimStart(s)));
  }

  /** A text with no whitespace at either end is its own trim. */
  lemma TrimOfTrimmed(s: string)
    requires NoEdgeWhitespace(s)
    ensures Trim(s) == s
  {
    if |s| > 0 {
      assert !IsWhitespace(s[0]) && !IsWhitespace(s[|s| - 1]);
      assert TrimStart(s) == s;
      assert TrimEnd(s) == s;
    }
  }

  lemma TrimIdempotent(s: string)
    ensures Trim(Trim(s)) == Trim(s)
  {
    TrimOfTrimmed(Trim(s));
  }

  /** What the contracts of `TrimStart` and `TrimEnd` give for the two
      slices: a whitespace prefix of `s` is dropped to leave `t`, then a
      whitespace suffix of `t` to leave `r`. */
  lemma TrimmedSlices(s: string, t: string, r: string)
    requires |t| <= |s| && t == s[|s| - |t|..]
    requires forall i :: 0 <= i < |s| - |t| ==> IsWhitespace(s[i])
    requires |t| > 0 ==> !IsWhitespace(t[0])
    requires |r| <= |t| && r == t[..|r|]
    requires forall i :: |r| <= i < |t| ==> IsWhitespace(t[i])
    requires |r| > 0 ==> !IsWhitespace(r[|r| - 1])
    ensures TrimmedAt(s, r, |s| - |t|)
    ensures NoEdgeWhitespace(r)
    ensures AllWhitespace(s) <==> |r| == 0
  {
    var a := |s| - |t|;
    assert forall i :: a <= i < |s| ==> s[i] == t[i - a];
    if |r| > 0 {
      assert r[0] == t[0] == s[a];
    }
  }

  // ---------------------------------------------------------------------
  // The fetch

  /** `fetch_amazon_price`: the request must succeed, the title is checked
      before the price, and the price text must convert. */
  function FetchAmazonPrice(url: string, response: Response): (r: Result<Product, FetchError>)
    ensures r.Ok? ==> r.value.url == url
    ensures r.Ok? ==> 0 <= r.value.price <= MaxI32
    ensures response.RequestFailed? ==> r == Err(RequestError)
    ensures response.Document? && response.title.None? ==> r == Err(TitleNotFound)
    ensures response.Document? && response.title.Some? && response.priceText.None? ==> r == Err(PriceNotFound)
  {
    match response
    case RequestFailed => Err(RequestError)
    case Document(title, priceText) =>
      if title.None? then Err(TitleNotFound)
      else if priceText.None? then Err(PriceNotFound)
      else
        match PriceFromText(priceText.value)
        case None => Err(PriceUnparseable)
        case Some(price) => Ok(Product(Trim(title.value), price, url))
  }

  /** The fetch succeeds exactly when the page has a title and a price text
      that converts; the product is then the trimmed title with the
      converted price. */
  lemma FetchAmazonPriceOk(url: string, response: Response)
    ensures var r := FetchAmazonPrice(url, response);
      && (r.Ok? <==>
        && response.Document?
        && response.title.Some?
        && response.priceText.Some?
        && PriceFromText(response.priceText.value).Some?)
      && (r.Ok? ==> r.value.name == Trim(response.title.value))
      && (r.Ok? ==> r.value.price == PriceFromText(response.priceText.value).value)
  {
  }
}

=== FILE: seed_db.dfy ===
/** The sample-data binary of src/bin/seed_db.rs: insert five products
    unless their url is already stored, and give each newly inserted one a
    week of price history around its base price. The random variation of
    each point is an input. */
module SeedDb {
  import opened Prelude
  import Scraper
  import opened Db

  datatype Sample = Sample(url: string, name: string, price: int)

  const Samples: seq<Sample> := [
    Sample("https://www.amazon.co.jp/dp/B08CF1RXD9", "コカ・コーラ 爽健美茶 ラベルレス 600ml ×24本", 2980),
    Sample("https://www.amazon.co.jp/dp/B0D1XD1ZV3", "アサヒ飲料 カルピスウォーター 500ml×24本", 2450),
    Sample("https://www.amazon.co.jp/dp/B09TQXZM3K", "サントリー 天然水 550ml×24本", 1980),
    Sample("https://www.amazon.co.jp/dp/B07VXQJ8K5", "伊藤園 おーいお茶 緑茶 525ml×24本", 2280),
    Sample("https://www.amazon.co.jp/dp/B08XYQWQR7", "キリン 午後の紅茶 ストレートティー 500ml×24本", 2680)
  ]

  /** Days of history written for a new sample. */
  const HistoryDays: nat := 7

  /** A variation is a whole percentage drawn from `-10..=10`. */
  predicate Variation(v: int) {
    -10 <= v <= 10
  }

  predicate Variations(vs: seq<int>) {
    |vs| == HistoryDays && forall k :: 0 <= k < |vs| ==> Variation(vs[k])
  }

  // ---------------------------------------------------------------------
  // The varied price

  /** `base + (base * variation / 100)` in `i32`: both operations wrap in a
      release build and the division truncates toward zero. */
  function SeedPrice(base: int, v: int): (r: int)
    ensures InI32(r)
    ensures 0 <= base <= MaxI32 / 10 && Variation(v) ==> r == base + TruncDiv(base * v, 100)
  {
    // Both branches compute the same value; this one only brings `NoWrap`'s
    // facts into scope so that the second ensures follows.
    if 0 <= base <= MaxI32 / 10 && Variation(v) then
      NoWrap(base, v);
      WrapI32(base + TruncDiv(WrapI32(base * v), 100))
    else
      WrapI32(base + TruncDiv(WrapI32(base * v), 100))
  }

  /** For a base up to a tenth of `i32::MAX` neither the product nor the sum
      leaves `i32`, and the change is at most a tenth of the base. */
  lemma NoWrap(base: int, v: int)
    requires 0 <= base <= MaxI32 / 10
    requires Variation(v)
    ensures InI32(base * v)
    ensures Abs(TruncDiv(base * v, 100)) <= base / 10
    ensures InI32(base + TruncDiv(base * v, 100))
  {
    MulBound(base, v);
    var t := TruncDiv(base * v, 100);
    HundredthMonotone(base * Abs(v), base * 10);
    TenthOfTenfold(base);
  }

  lemma MulBound(base: int, v: int)
    requires 0 <= base && Variation(v)
    ensures Abs(base * v) == base * Abs(v)
    ensures base * Abs(v) <= base * 10
  {
  }

  lemma TenthOfTenfold(base: nat)
    ensures base * 10 / 100 == base / 10
  {
    var q, m := base / 10, base % 10;
    assert base * 10 == 100 * q + 10 * m;
  }

  lemma HundredthMonotone(x: nat, y: nat)
    requires x <= y
    ensures x / 100 <= y / 100
  {
  }

  /** For a base price up to a tenth of `i32::MAX` nothing wraps, and the
      varied price stays within ten percent of the base, on the side the
      sign of the variation says. */
  lemma SeedPriceWithinTenPercent(base: int, v: int)
    requires 0 <= base <= MaxI32 / 10
    requires Variation(v)
    ensures SeedPrice(base, v) == base + TruncDiv(base * v, 100)
    ensures Abs(SeedPrice(base, v) - base) <= base / 10
    ensures 0 <= SeedPrice(base, v) <= MaxI32
    ensures v >= 0 ==> SeedPrice(base, v) >= base
    ensures v <= 0 ==> SeedPrice(base, v) <= base
  {
    var r, t := SeedPrice(base, v), TruncDiv(base * v, 100);
    assert r == base + t;
    NoWrap(base, v);
    assert Abs(t) <= base / 10 <= base;
    MulSign(base, v);
  }

  /** A non-negative factor keeps the other factor's sign. */
  lemma MulSign(base: int, v: int)
    requires 0 <= base
    ensures v >= 0 ==> base * v >= 0
    ensures v <= 0 ==> base * v <= 0
  {
  }

  // ---------------------------------------------------------------------
  // The week of history

  /** The points for `days_ago` in `(0..7).rev()`: six days back up to now,
      one day apart. */
  function SeedPoints(id: int, base: int, now: Time, vs: seq<int>): (r: seq<PricePoint>)
    requires Variations(vs)
    ensures |r| == HistoryDays
    ensures forall k :: 0 <= k < |r| ==> r[k].productId == id
    ensures forall i, j :: 0 <= i < j < |r| ==> r[i].checkedAt + (j - i) * SecondsPerDay == r[j].checkedAt
    ensures r[0].checkedAt == now - 6 * SecondsPerDay && r[|r| - 1].checkedAt == now
    ensures 0 <= base <= MaxI32 / 10 ==>
      forall k :: 0 <= k < |r| ==> 0 <= r[k].price && Abs(r[k].price - base) <= base / 10
  {
    var r := seq(HistoryDays, k requires 0 <= k < HistoryDays =>
      PricePoint(id, SeedPrice(base, vs[k]), now - (HistoryDays - 1 - k) * SecondsPerDay));
    forall i, j | 0 <= i < j < |r| ensures r[i].checkedAt + (j - i) * SecondsPerDay == r[j].checkedAt {
    }
    assert 0 <= base <= MaxI32 / 10 ==>
      forall k :: 0 <= k < |r| ==> 0 <= r[k].price && Abs(r[k].price - base) <= base / 10 by {
      if 0 <= base <= MaxI32 / 10 {
        forall k | 0 <= k < |r| ensures 0 <= r[k].price && Abs(r[k].price - base) <= base / 10 {
          SeedPriceWithinTenPercent(base, vs[k]);
        }
      }
    }
    r
  }

  /** Every seeded price is an `i32`, whatever the base: out of range the
      release build wraps rather than failing. */
  lemma SeedPointsInI32(id: int, base: int, now: Time, vs: seq<int>)
    requires Variations(vs)
    ensures HistoryInI32(SeedPoints(id, base, now, vs))
  {
    var r := SeedPoints(id, base, now, vs);
    forall pt | pt in r ensures InI32(pt.price) {
      var k :| 0 <= k < |r| && r[k] == pt;
      assert pt.price == SeedPrice(base, vs[k]);
    }
  }

  lemma SeedPointsChronological(id: int, base: int, now: Time, vs: seq<int>)
    requires Variations(vs)
    ensures Chronological(SeedPoints(id, base, now, vs))
    ensures NotAfter(SeedPoints(id, base, now, vs), now)
  {
    var r := SeedPoints(id, base, now, vs);
    forall k | 0 <= k < |r| ensures r[k].checkedAt <= now {
      assert r[k].checkedAt + (|r| - 1 - k) * SecondsPerDay == r[|r| - 1].checkedAt;
    }
  }

  lemma {:induction false} PointsOfConcat(h: seq<PricePoint>, t: seq<PricePoint>, q: int)
    ensures PointsOf(h + t, q) == PointsOf(h, q) + PointsOf(t, q)
    decreases |t|
  {
    if |t| > 0 {
      var init, x := t[..|t| - 1], t[|t| - 1];
      assert t == init + [x];
      assert h + t == (h + init) + [x];
      PointsOfAppend(h + init, x);
      PointsOfAppend(init, x);
      PointsOfConcat(h, init, q);
    } else {
      assert h + t == h;
    }
  }

  /** The points of a block written for one id, seen per product. */
  lemma PointsOfOwnBlock(t: seq<PricePoint>, id: int, q: int)
    requires forall k :: 0 <= k < |t| ==> t[k].productId == id
    ensures PointsOf(t, q) == if q == id then t else []
    decreases |t|
  {
    if |t| > 0 {
      var init := t[..|t| - 1];
      assert t == init + [t[|t| - 1]];
      PointsOfAppend(init, t[|t| - 1]);
      PointsOfOwnBlock(init, id, q);
    }
  }

  // ---------------------------------------------------------------------
  // Inserting the samples

  datatype Inserted = Inserted(store: Store, changes: nat)

  function AsProduct(smp: Sample): Scraper.Product {
    Scraper.Product(smp.name, smp.price, smp.url)
  }

  /** `INSERT OR IGNORE INTO products`: the url is the only constraint a
      sample can violate, and a violation inserts nothing. */
  function InsertOrIgnore(s: Store, smp: Sample, now: Time): (r: Inserted)
    ensures r.changes > 0 <==> RowByUrl(s, smp.url).None?
    ensures r.changes == 0 ==> r.store == s
    ensures r.changes > 0 ==>
      && RowByUrl(r.store, smp.url) == Some(ProductRow(s.nextId, smp.url, smp.name, smp.price, now))
      && r.store.nextId == s.nextId + 1
      && Ids(r.store.products) == Ids(s.products) + {s.nextId}
    ensures r.store.history == s.history
    ensures forall u :: u != smp.url ==> RowByUrl(r.store, u) == RowByUrl(s, u)
  {
    if RowByUrl(s, smp.url).Some? then Inserted(s, 0)
    else Inserted(Upsert(s, AsProduct(smp), now).store, 1)
  }

  /** One sample: insert it, and when a row was inserted look its id up and
      write its week of history; otherwise skip it. */
  function SeedOne(s: Store, smp: Sample, now: Time, vs: seq<int>): (r: Store)
    requires Variations(vs)
    ensures RowByUrl(r, smp.url).Some?
    ensures RowByUrl(s, smp.url).Some? ==> r == s
    ensures RowByUrl(s, smp.url).None? ==>
      && RowByUrl(r, smp.url) == Some(ProductRow(s.nextId, smp.url, smp.name, smp.price, now))
      && r.nextId == s.nextId + 1
      && PointsOf(r.history, s.nextId) == PointsOf(s.history, s.nextId) + SeedPoints(s.nextId, smp.price, now, vs)
    ensures forall u :: u != smp.url ==> RowByUrl(r, u) == RowByUrl(s, u)
    ensures forall q :: q != s.nextId ==> PointsOf(r.history, q) == PointsOf(s.history, q)
    ensures Extends(s.history, r.history)
  {
    var ins := InsertOrIgnore(s, smp, now);
    if ins.changes == 0 then s
    else
      var id := RowByUrl(ins.store, smp.url).value.id;
      var pts := SeedPoints(id, smp.price, now, vs);
      var r := ins.store.(history := ins.store.history + pts);
      assert forall q :: PointsOf(r.history, q) == PointsOf(s.history, q) + PointsOf(pts, q) by {
        forall q ensures PointsOf(r.history, q) == PointsOf(s.history, q) + PointsOf(pts, q) {
          PointsOfConcat(s.history, pts, q);
        }
      }
      assert forall q :: PointsOf(pts, q) == if q == id then pts else [] by {
        forall q ensures PointsOf(pts, q) == if q == id then pts else [] {
          PointsOfOwnBlock(pts, id, q);
        }
      }
      assert r.history[..|s.history|] == s.history;
      r
  }

  predicate AllVariations(vss: seq<seq<int>>) {
    forall k :: 0 <= k < |vss| ==> Variations(vss[k])
  }

  lemma AllVariationsTail(vss: seq<seq<int>>)
    requires |vss| > 0 && AllVariations(vss)
    ensures Variations(vss[0]) && AllVariations(vss[1..])
  {
    assert forall k :: 1 <= k < |vss| ==> vss[1..][k - 1] == vss[k];
  }

  /** The urls of a list of samples. */
  function SampleUrls(samples: seq<Sample>): (r: set<string>)
    ensures forall k :: 0 <= k < |samples| ==> samples[k].url in r
    ensures forall u :: u in r ==> exists k :: 0 <= k < |samples| && samples[k].url == u
  {
    if |samples| == 0 then {}
    else
      var r := {samples[0].url} + SampleUrls(samples[1..]);
      assert forall k :: 1 <= k < |samples| ==> samples[1..][k - 1] == samples[k];
      assert forall u :: u in SampleUrls(samples[1..]) ==> exists k :: 1 <= k < |samples| && samples[k].url == u by {
        forall u | u in SampleUrls(samples[1..]) ensures exists k :: 1 <= k < |samples| && samples[k].url == u {
          var j :| 0 <= j < |samples[1..]| && samples[1..][j].url == u;
          assert samples[j + 1].url == u;
        }
      }
      r
  }

  /** The loop over the samples. */
  function Seed(s: Store, samples: seq<Sample>, now: Time, vss: seq<seq<int>>): (r: Store)
    requires |vss| == |samples| && AllVariations(vss)
    ensures forall u :: u in SampleUrls(samples) ==> RowByUrl(r, u).Some?
    ensures forall u :: RowByUrl(s, u).Some? || u !in SampleUrls(samples) ==> RowByUrl(r, u) == RowByUrl(s, u)
    ensures (forall u :: u in SampleUrls(samples) ==> RowByUrl(s, u).Some?) ==> r == s
    ensures Extends(s.history, r.history)
    ensures r.nextId >= s.nextId
    ensures forall q :: q < s.nextId ==> PointsOf(r.history, q) == PointsOf(s.history, q)
    decreases |samples|
  {
    if |samples| == 0 then s
    else
      AllVariationsTail(vss);
      var s1 := SeedOne(s, samples[0], now, vss[0]);
      var r := Seed(s1, samples[1..], now, vss[1..]);
      ExtendsTrans(s.history, s1.history, r.history);
      r
  }

  /** `seed_db`'s main loop over its five samples. */
  function SeedSamples(s: Store, now: Time, vss: seq<seq<int>>): (r: Store)
    requires |vss| == |Samples| && AllVariations(vss)
    ensures forall u :: u in SampleUrls(Samples) ==> RowByUrl(r, u).Some?
    ensures forall u :: RowByUrl(s, u).Some? ==> RowByUrl(r, u) == RowByUrl(s, u)
    ensures Extends(s.history, r.history)
    ensures forall q :: q < s.nextId ==> PointsOf(r.history, q) == PointsOf(s.history, q)
  {
    Seed(s, Samples, now, vss)
  }

  /** Running the seed binary a second time changes nothing, whatever the
      clock and the random draws. */
  lemma SeedTwiceIsSeedOnce(s: Store, now1: Time, vss1: seq<seq<int>>, now2: Time, vss2: seq<seq<int>>)
    requires |vss1| == |Samples| && AllVariations(vss1)
    requires |vss2| == |Samples| && AllVariations(vss2)
    ensures SeedSamples(SeedSamples(s, now1, vss1), now2, vss2) == SeedSamples(s, now1, vss1)
  {
    var once := SeedSamples(s, now1, vss1);
    assert forall u :: u in SampleUrls(Samples) ==> RowByUrl(once, u).Some?;
  }

  predicate SamplesValid(samples: seq<Sample>) {
    forall k :: 0 <= k < |samples| ==> 0 <= samples[k].price <= MaxI32
  }

  lemma BlockPointsOf(h: seq<PricePoint>, pts: seq<PricePoint>, id: int, q: int)
    requires forall k :: 0 <= k < |pts| ==> pts[k].productId == id
    ensures PointsOf(h + pts, q) == PointsOf(h, q) + (if q == id then pts else [])
  {
    PointsOfConcat(h, pts, q);
    PointsOfOwnBlock(pts, id, q);
  }

  /** Appending a block of chronological points for a product that has no
      points yet keeps the store valid. */
  lemma AppendBlockPreservesValid(s: Store, id: int, pts: seq<PricePoint>)
    requires Valid(s)
    requires id in Ids(s.products)
    requires PointsOf(s.history, id) == []
    requires forall k :: 0 <= k < |pts| ==> pts[k].productId == id
    requires Chronological(pts)
    requires HistoryInI32(pts)
    ensures Valid(s.(history := s.history + pts))
  {
    var h := s.history + pts;
    assert PerProductChronological(h) by {
      forall q ensures Chronological(PointsOf(h, q)) {
        BlockPointsOf(s.history, pts, id, q);
        if q != id {
          assert Chronological(PointsOf(s.history, q));
        }
      }
    }
    assert NoOrphans(s.(history := h)) by {
      forall pt | pt in h ensures pt.productId in Ids(s.products) {
        if pt !in s.history {
          var k :| 0 <= k < |pts| && pts[k] == pt;
        }
      }
    }
  }

  lemma SeedOnePreservesValid(s: Store, smp: Sample, now: Time, vs: seq<int>)
    requires Valid(s)
    requires 0 <= smp.price <= MaxI32
    requires Variations(vs)
    ensures Valid(SeedOne(s, smp, now, vs))
  {
    if RowByUrl(s, smp.url).None? {
      var ins := InsertOrIgnore(s, smp, now);
      UpsertPreservesValid(s, AsProduct(smp), now);
      var id := s.nextId;
      assert id !in Ids(s.products) by {
        assert IdsBelow(s.products, s.nextId);
      }
      PointsOfEmptyWhenAbsent(s.history, id);
      SeedPointsChronological(id, smp.price, now, vs);
      SeedPointsInI32(id, smp.price, now, vs);
      assert RowByUrl(ins.store, smp.url).value.id == id;
      AppendBlockPreservesValid(ins.store, id, SeedPoints(id, smp.price, now, vs));
    }
  }

  lemma {:induction false} SeedPreservesValid(s: Store, samples: seq<Sample>, now: Time, vss: seq<seq<int>>)
    requires Valid(s)
    requires SamplesValid(samples)
    requires |vss| == |samples| && AllVariations(vss)
    ensures Valid(Seed(s, samples, now, vss))
    decreases |samples|
  {
    if |samples| > 0 {
      AllVariationsTail(vss);
      SeedOnePreservesValid(s, samples[0], now, vss[0]);
      var s1 := SeedOne(s, samples[0], now, vss[0]);
      assert SamplesValid(samples[1..]) by {
        assert forall k :: 1 <= k < |samples| ==> samples[1..][k - 1] == samples[k];
      }
      SeedPreservesValid(s1, samples[1..], now, vss[1..]);
    }
  }

  /** No url appears twice in the list. */
  predicate Distinct(samples: seq<Sample>) {
    forall i, j :: 0 <= i < j < |samples| ==> samples[i].url != samples[j].url
  }

  /** None of the samples' urls is stored. */
  predicate Unstored(s: Store, samples: seq<Sample>) {
    forall k :: 0 <= k < |samples| ==> RowByUrl(s, samples[k].url).None?
  }

  /** Samples none of which is stored yet get consecutive fresh ids, in list
      order. */
  lemma {:induction false} SeedFreshIds(s: Store, samples: seq<Sample>, now: Time, vss: seq<seq<int>>)
    requires |vss| == |samples| && AllVariations(vss)
    requires Distinct(samples) && Unstored(s, samples)
    ensures Seed(s, samples, now, vss).nextId == s.nextId + |samples|
    ensures IdsInOrder(Seed(s, samples, now, vss), samples, s.nextId)
    decreases |samples|
  {
    if |samples| > 0 {
      AllVariationsTail(vss);
      var s1 := SeedOne(s, samples[0], now, vss[0]);
      var tail, vs1 := samples[1..], vss[1..];
      var r := Seed(s, samples, now, vss);
      assert r == Seed(s1, tail, now, vs1) by {
        SeedStep(s, samples, now, vss);
      }
      FirstSampleFresh(s, samples, now, vss[0]);
      SeedFreshIds(s1, tail, now, vs1);
      assert RowByUrl(r, samples[0].url) == RowByUrl(s1, samples[0].url);
      IdsInOrderCons(r, samples, s.nextId);
    }
  }

  /** The week of each sample when sample `k` is stored under `first + k`. */
  function Weeks(samples: seq<Sample>, first: int, now: Time, vss: seq<seq<int>>): (w: seq<seq<PricePoint>>)
    requires |vss| == |samples| && AllVariations(vss)
    ensures |w| == |samples|
    ensures forall k :: 0 <= k < |samples| ==> w[k] == SeedPoints(first + k, samples[k].price, now, vss[k])
  {
    seq(|samples|, k requires 0 <= k < |samples| => SeedPoints(first + k, samples[k].price, now, vss[k]))
  }

  /** Block `k` of `blocks` was appended to the points of `s` under id
      `first + k`. */
  ghost predicate BlocksFrom(r: Store, s: Store, first: int, blocks: seq<seq<PricePoint>>) {
    forall k :: 0 <= k < |blocks| ==>
      PointsOf(r.history, first + k) == PointsOf(s.history, first + k) + blocks[k]
  }

  /** Samples none of which is stored yet each get exactly their week of
      points, under the id handed out to them. */
  lemma {:induction false} SeedFreshWeeks(s: Store, samples: seq<Sample>, now: Time, vss: seq<seq<int>>)
    requires |vss| == |samples| && AllVariations(vss)
    requires Distinct(samples) && Unstored(s, samples)
    ensures BlocksFrom(Seed(s, samples, now, vss), s, s.nextId, Weeks(samples, s.nextId, now, vss))
    decreases |samples|
  {
    if |samples| > 0 {
      SeedStep(s, samples, now, vss);
      var s1 := SeedOne(s, samples[0], now, vss[0]);
      var r := Seed(s1, samples[1..], now, vss[1..]);
      FirstSampleFresh(s, samples, now, vss[0]);
      SeedFreshWeeks(s1, samples[1..], now, vss[1..]);
      FirstWeekKept(s, samples, now, vss);
      AllVariationsTail(vss);
      assert IsTail(samples[1..], samples) && IsTail(vss[1..], vss);
      WeeksTail(samples, samples[1..], s.nextId, s1.nextId, now, vss, vss[1..]);
      BlocksCons(r, s, s1, s.nextId, s1.nextId, Weeks(samples, s.nextId, now, vss), Weeks(samples[1..], s1.nextId, now, vss[1..]));
    }
  }

  /** The first of the unstored samples keeps its week through the rest of
      the loop. */
  lemma FirstWeekKept(s: Store, samples: seq<Sample>, now: Time, vss: seq<seq<int>>)
    requires |samples| > 0
    requires |vss| == |samples| && AllVariations(vss)
    requires RowByUrl(s, samples[0].url).None?
    ensures PointsOf(Seed(s, samples, now, vss).history, s.nextId) ==
      PointsOf(s.history, s.nextId) + Weeks(samples, s.nextId, now, vss)[0]
    ensures PointsAgreeExcept(SeedOne(s, samples[0], now, vss[0]), s, s.nextId)
  {
    SeedStep(s, samples, now, vss);
  }

  /** `tail` is `xs` without its first element, stated index by index. */
  predicate IsTail<T(==)>(tail: seq<T>, xs: seq<T>) {
    |xs| > 0 && |tail| == |xs| - 1 && forall k :: 0 < k < |xs| ==> tail[k - 1] == xs[k]
  }

  /** The weeks of the rest of the samples, numbered from the next id, are the
      rest of the weeks. */
  lemma WeeksTail(samples: seq<Sample>, tail: seq<Sample>, first: int, next: int, now: Time,
                  vss: seq<seq<int>>, vs1: seq<seq<int>>)
    requires IsTail(tail, samples) && IsTail(vs1, vss) && next == first + 1
    requires |vss| == |samples| && AllVariations(vss) && AllVariations(vs1)
    ensures IsTail(Weeks(tail, next, now, vs1), Weeks(samples, first, now, vss))
  {
    var w, w1 := Weeks(samples, first, now, vss), Weeks(tail, next, now, vs1);
    forall k | 0 < k < |samples| ensures w1[k - 1] == w[k] {
      assert tail[k - 1] == samples[k] && vs1[k - 1] == vss[k];
      assert w1[k - 1] == SeedPoints(next + (k - 1), samples[k].price, now, vss[k]);
      SeedPointsSame(next + (k - 1), first + k, samples[k].price, now, vss[k]);
    }
  }

  /** The same week whichever way its id is written: keeps the arithmetic of
      the two ids out of the proofs that compare weeks. */
  lemma SeedPointsSame(id1: int, id2: int, base: int, now: Time, vs: seq<int>)
    requires id1 == id2 && Variations(vs)
    ensures SeedPoints(id1, base, now, vs) == SeedPoints(id2, base, now, vs)
  {
  }

  /** Blocks appended under consecutive ids, one step at a time: the first
      under `first`, the rest over a store that differs only at `first`. */
  lemma BlocksCons(r: Store, s: Store, s1: Store, first: int, next: int,
                   blocks: seq<seq<PricePoint>>, rest: seq<seq<PricePoint>>)
    requires IsTail(rest, blocks) && next == first + 1
    requires PointsOf(r.history, first) == PointsOf(s.history, first) + blocks[0]
    requires PointsAgreeExcept(s1, s, first)
    requires BlocksFrom(r, s1, next, rest)
    ensures BlocksFrom(r, s, first, blocks)
  {
    forall k | 0 < k < |blocks|
      ensures PointsOf(r.history, first + k) == PointsOf(s.history, first + k) + blocks[k]
    {
      BlockStep(r, s, s1, first, next, blocks, rest, k);
    }
  }

  /** Block `k` of the rest, appended over `s1`, is block `k` appended over
      `s`: the two stores agree there. */
  lemma BlockStep(r: Store, s: Store, s1: Store, first: int, next: int,
                  blocks: seq<seq<PricePoint>>, rest: seq<seq<PricePoint>>, k: int)
    requires IsTail(rest, blocks) && next == first + 1 && 0 < k < |blocks|
    requires PointsAgreeExcept(s1, s, first)
    requires BlocksFrom(r, s1, next, rest)
    ensures PointsOf(r.history, first + k) == PointsOf(s.history, first + k) + blocks[k]
  {
    var j := k - 1;
    assert rest[j] == blocks[k];
    assert PointsOf(r.history, next + j) == PointsOf(s1.history, next + j) + rest[j];
    assert next + j == first + k;
    assert PointsOf(s1.history, first + k) == PointsOf(s.history, first + k);
  }

  /** Every product other than `id` has the same points in both stores. */
  ghost predicate PointsAgreeExcept(s1: Store, s: Store, id: int) {
    forall q :: q != id ==> PointsOf(s1.history, q) == PointsOf(s.history, q)
  }

  /** Sample `k` is stored under id `first + k`. */
  predicate IdsInOrder(st: Store, samples: seq<Sample>, first: int) {
    forall k :: 0 <= k < |samples| ==>
      RowByUrl(st, samples[k].url).Some? && RowByUrl(st, samples[k].url).value.id == first + k
  }

  lemma IdsInOrderCons(st: Store, samples: seq<Sample>, first: int)
    requires |samples| > 0
    requires RowByUrl(st, samples[0].url).Some? && RowByUrl(st, samples[0].url).value.id == first
    requires IdsInOrder(st, samples[1..], first + 1)
    ensures IdsInOrder(st, samples, first)
  {
    forall k | 0 < k < |samples|
      ensures RowByUrl(st, samples[k].url).Some? && RowByUrl(st, samples[k].url).value.id == first + k
    {
      assert samples[1..][k - 1] == samples[k];
    }
  }

  lemma SeedStep(s: Store, samples: seq<Sample>, now: Time, vss: seq<seq<int>>)
    requires |samples| > 0
    requires |vss| == |samples| && AllVariations(vss)
    ensures AllVariations(vss[1..]) && Variations(vss[0])
    ensures Seed(s, samples, now, vss) == Seed(SeedOne(s, samples[0], now, vss[0]), samples[1..], now, vss[1..])
  {
    AllVariationsTail(vss);
  }

  /** The first of distinct unstored samples gets the next id, and the rest
      are still distinct and unstored afterwards. */
  lemma FirstSampleFresh(s: Store, samples: seq<Sample>, now: Time, vs: seq<int>)
    requires |samples| > 0 && Variations(vs)
    requires Distinct(samples) && Unstored(s, samples)
    ensures var s1 := SeedOne(s, samples[0], now, vs);
      && s1.nextId == s.nextId + 1
      && RowByUrl(s1, samples[0].url).Some? && RowByUrl(s1, samples[0].url).value.id == s.nextId
      && Distinct(samples[1..]) && Unstored(s1, samples[1..])
  {
    var s1 := SeedOne(s, samples[0], now, vs);
    var tail := samples[1..];
    assert RowByUrl(s, samples[0].url).None?;
    assert Distinct(tail) && forall k :: 0 <= k < |tail| ==> tail[k].url != samples[0].url && RowByUrl(s, tail[k].url).None? by {
      assert forall k :: 0 <= k < |tail| ==> tail[k] == samples[k + 1];
    }
  }

  lemma SamplesDistinct()
    ensures Distinct(Samples)
  {
    var u := seq(5, k requires 0 <= k < 5 => Samples[k].url);
    assert u[0][30] == '8' && u[1][30] == 'D' && u[2][30] == '9' && u[3][30] == '7' && u[4][30] == '8';
    assert u[0][31] == 'C' && u[4][31] == 'X';
    forall i, j | 0 <= i < j < |Samples| ensures Samples[i].url != Samples[j].url {
      assert Samples[i].url == u[i] && Samples[j].url == u[j];
    }
  }

  /** Seeding a fresh database gives a valid store. */
  lemma SeedEmptyStoreValid(now: Time, vss: seq<seq<int>>)
    requires |vss| == |Samples| && AllVariations(vss)
    ensures Valid(SeedSamples(EmptyStore, now, vss))
  {
    EmptyStoreValid();
    assert SamplesValid(Samples);
    SeedPreservesValid(EmptyStore, Samples, now, vss);
  }

  /** Samples with distinct urls seeded into a store with no products get
      the ids its counter hands out next, in list order. */
  lemma SeedIntoEmpty(s: Store, samples: seq<Sample>, now: Time, vss: seq<seq<int>>)
    requires s.products == []
    requires |vss| == |samples| && AllVariations(vss)
    requires Distinct(samples)
    ensures Seed(s, samples, now, vss).nextId == s.nextId + |samples|
    ensures IdsInOrder(Seed(s, samples, now, vss), samples, s.nextId)
  {
    assert forall u :: RowByUrl(s, u).None?;
    assert Unstored(s, samples);
    SeedFreshIds(s, samples, now, vss);
  }
}

=== FILE: web.dfy ===
/** The HTTP handlers of src/web.rs as functions over the store: list,
    add, check-all, history and delete. The mutex around the connection is
    not modelled; each handler runs as one sequential step. `check_prices`
    collects its per-product results in snapshot order, so it is modelled as
    a sequential fold. */
module Web {
  import opened Prelude
  import Scraper
  import opened Db
  import opened Reconcile
  import HistoryOrder

  /** The JSON body of a product: `id`, `url`, `name`, `current_price`. */
  datatype ApiProduct = ApiProduct(id: int, url: string, name: string, currentPrice: int)

  /** The JSON body of one history point: `price`, `checked_at`. */
  datatype HistoryEntry = HistoryEntry(price: int, checkedAt: Time)

  datatype StatusCode = BadRequest | NotFound | InternalServerError | NoContent

  datatype Response<T> = Response(store: Store, result: Result<T, StatusCode>)

  datatype DeleteFault = NoDeleteFault | HistoryDeleteFails | ProductDeleteFails

  function View(row: ProductRow): ApiProduct {
    ApiProduct(row.id, row.url, row.name, row.currentPrice)
  }

  function Entry(pt: PricePoint): HistoryEntry {
    HistoryEntry(pt.price, pt.checkedAt)
  }

  // ---------------------------------------------------------------------
  // GET /api/products

  /** `list_products`: every product, newest id first. `readFails` stands for
      the query failing. */
  function ListProducts(s: Store, readFails: bool): (r: Result<seq<ApiProduct>, StatusCode>)
    ensures r.Err? <==> readFails
    ensures r.Err? ==> r.error == InternalServerError
    ensures r.Ok? ==> |r.value| == |s.products|
    ensures r.Ok? ==> forall row :: row in s.products ==> View(row) in r.value
    ensures r.Ok? ==> forall x :: x in r.value ==> exists row :: row in s.products && x == View(row)
    ensures r.Ok? && IdsAscending(s.products) ==>
      forall i, j :: 0 <= i < j < |r.value| ==> r.value[i].id > r.value[j].id
  {
    if readFails then Err(InternalServerError)
    else
      var n := |s.products|;
      var xs := seq(n, k requires 0 <= k < n => View(s.products[n - 1 - k]));
      ReversedViews(s.products, xs);
      Ok(xs)
  }

  /** The views of the rows, newest id first. */
  lemma ReversedViews(ps: seq<ProductRow>, xs: seq<ApiProduct>)
    requires |xs| == |ps|
    requires forall k :: 0 <= k < |xs| ==> xs[k] == View(ps[|ps| - 1 - k])
    ensures forall row :: row in ps ==> View(row) in xs
    ensures forall x :: x in xs ==> exists row :: row in ps && x == View(row)
    ensures IdsAscending(ps) ==> forall i, j :: 0 <= i < j < |xs| ==> xs[i].id > xs[j].id
  {
    forall row | row in ps ensures View(row) in xs {
      var i :| 0 <= i < |ps| && ps[i] == row;
      assert xs[|ps| - 1 - i] == View(row);
    }
    forall x | x in xs ensures exists row :: row in ps && x == View(row) {
      var k :| 0 <= k < |xs| && xs[k] == x;
      assert ps[|ps| - 1 - k] in ps;
    }
  }

  // ---------------------------------------------------------------------
  // POST /api/products

  /** `add_product`: a failed fetch is a 400 with no write; a failed write is
      a 500, and an upsert that went through stays. */
  function AddProduct(s: Store, url: string, a: Attempt): (r: Response<ApiProduct>)
    ensures !FetchOk(url, a) ==> r == Response(s, Err(BadRequest))
    ensures r.result.Ok? <==> Succeeds(url, a)
    ensures FetchOk(url, a) && !Succeeds(url, a) ==> r.result == Err(InternalServerError)
    ensures r.result.Ok? ==>
      var x := r.result.value;
      && x.url == url
      && x.name == Fetch(url, a).value.name
      && x.currentPrice == Fetch(url, a).value.price
      && RowByUrl(r.store, url).Some?
      && View(RowByUrl(r.store, url).value) == x
      && PointsOf(r.store.history, x.id) == PointsOf(s.history, x.id) + [PricePoint(x.id, x.currentPrice, a.at)]
    ensures forall u :: u != url ==> RowByUrl(r.store, u) == RowByUrl(s, u)
    ensures Extends(s.history, r.store.history)
    ensures FetchOk(url, a) && a.upsert == InsertFails ==> r.store == s
    ensures r.result.Err? ==> r.store.history == s.history
    ensures r.result.Ok? ==>
      r.store.history == s.history + [PricePoint(r.result.value.id, r.result.value.currentPrice, a.at)]
    ensures forall q :: !(r.result.Ok? && q == r.result.value.id) ==>
      PointsOf(r.store.history, q) == PointsOf(s.history, q)
  {
    var rec := AddByUrl(s, url, a);
    match rec.outcome
    case FetchFailed(_) => Response(rec.store, Err(BadRequest))
    case SaveFailed(_) => Response(rec.store, Err(InternalServerError))
    case HistoryFailed(_) => Response(rec.store, Err(InternalServerError))
    case Recorded(p, id) => Response(rec.store, Ok(ApiProduct(id, p.url, p.name, p.price)))
  }

  lemma AddProductPreservesValid(s: Store, url: string, a: Attempt)
    requires Valid(s)
    requires NotAfter(s.history, a.at)
    ensures Valid(AddProduct(s, url, a).store)
  {
    AddByUrlPreservesValid(s, url, a);
    AddProductStore(s, url, a);
  }

  lemma AddProductStore(s: Store, url: string, a: Attempt)
    ensures AddProduct(s, url, a).store == AddByUrl(s, url, a).store
  {
    var rec := AddByUrl(s, url, a);
    match rec.outcome
    case FetchFailed(_) =>
      assert AddProduct(s, url, a) == Response(rec.store, Err(BadRequest));
    case SaveFailed(_) =>
      assert AddProduct(s, url, a) == Response(rec.store, Err(InternalServerError));
    case HistoryFailed(_) =>
      assert AddProduct(s, url, a) == Response(rec.store, Err(InternalServerError));
    case Recorded(p, id) =>
      assert AddProduct(s, url, a) == Response(rec.store, Ok(ApiProduct(id, p.url, p.name, p.price)));
  }

  // ---------------------------------------------------------------------
  // POST /api/products/check

  datatype Lenient = Lenient(store: Store, reported: Option<ApiProduct>)

  datatype Checked = Checked(store: Store, reported: seq<ApiProduct>)

  /** What `check_prices` reports for a product whose fetch succeeded: the
      snapshot id with the fetched url, name and price. */
  function Report(row: ProductRow, a: Attempt): ApiProduct
    requires FetchOk(row.url, a)
  {
    var p := Fetch(row.url, a).value;
    ApiProduct(row.id, p.url, p.name, p.price)
  }

  /** The history points one lenient attempt adds: the write is attempted
      whether or not the upsert failed. */
  function LenientPointsAdded(row: ProductRow, a: Attempt): seq<PricePoint> {
    if FetchOk(row.url, a) && !a.appendFails then [PricePoint(row.id, Fetch(row.url, a).value.price, a.at)] else []
  }

  /** One task of `check_prices`: both write results are discarded
      (`let _ =`), so a product is reported whenever its fetch succeeded. */
  function LenientStep(s: Store, row: ProductRow, a: Attempt): (r: Lenient)
    ensures r.reported.Some? <==> FetchOk(row.url, a)
    ensures r.reported.Some? ==> r.reported.value == Report(row, a) && r.reported.value.url == row.url
    ensures !FetchOk(row.url, a) ==> r.store == s
    ensures forall u :: u != row.url ==> RowByUrl(r.store, u) == RowByUrl(s, u)
    ensures forall q :: q != row.id ==> PointsOf(r.store.history, q) == PointsOf(s.history, q)
    ensures Extends(s.history, r.store.history)
    ensures Present(s, row) ==>
      && RowByUrl(r.store, row.url) == Some(RowAfter(RowByUrl(s, row.url).value, row.url, a))
      && PointsOf(r.store.history, row.id) == PointsOf(s.history, row.id) + LenientPointsAdded(row, a)
      && Ids(r.store.products) == Ids(s.products)
  {
    match Fetch(row.url, a)
    case Err(_) => Lenient(s, None)
    case Ok(p) =>
      var saved := SaveProduct(s, p, a.at, a.upsert).store;
      var appended := SavePriceHistory(saved, row.id, p.price, a.at, a.appendFails).store;
      LenientWrites(s, row, a, p, saved, appended);
      Lenient(appended, Some(ApiProduct(row.id, p.url, p.name, p.price)))
  }

  /** What the two discarded writes of a lenient step do to the store. */
  lemma LenientWrites(s: Store, row: ProductRow, a: Attempt, p: Scraper.Product, saved: Store, appended: Store)
    requires Fetch(row.url, a) == Ok(p)
    requires saved == SaveProduct(s, p, a.at, a.upsert).store
    requires appended == SavePriceHistory(saved, row.id, p.price, a.at, a.appendFails).store
    ensures forall u :: u != row.url ==> RowByUrl(appended, u) == RowByUrl(s, u)
    ensures forall q :: q != row.id ==> PointsOf(appended.history, q) == PointsOf(s.history, q)
    ensures Extends(s.history, appended.history)
    ensures Present(s, row) ==>
      && RowByUrl(appended, row.url) == Some(RowAfter(RowByUrl(s, row.url).value, row.url, a))
      && PointsOf(appended.history, row.id) == PointsOf(s.history, row.id) + LenientPointsAdded(row, a)
      && Ids(appended.products) == Ids(s.products)
  {
    LenientStore(s, row, p, a.upsert, a.at, a.appendFails, saved, appended);
  }

  /** The same, for a fetched product `p` whose url is the row's. */
  lemma LenientStore(s: Store, row: ProductRow, p: Scraper.Product, fault: UpsertFault, at: Time, appendFails: bool,
                     saved: Store, appended: Store)
    requires p.url == row.url
    requires saved == SaveProduct(s, p, at, fault).store
    requires appended == SavePriceHistory(saved, row.id, p.price, at, appendFails).store
    ensures forall u :: u != row.url ==> RowByUrl(appended, u) == RowByUrl(s, u)
    ensures forall q :: q != row.id ==> PointsOf(appended.history, q) == PointsOf(s.history, q)
    ensures Extends(s.history, appended.history)
    ensures Present(s, row) ==>
      && RowByUrl(appended, row.url) ==
           Some(if fault != InsertFails then Refreshed(RowByUrl(s, row.url).value, p) else RowByUrl(s, row.url).value)
      && PointsOf(appended.history, row.id) ==
           PointsOf(s.history, row.id) + (if !appendFails then [PricePoint(row.id, p.price, at)] else [])
      && Ids(appended.products) == Ids(s.products)
  {
    assert appended.products == saved.products && saved.history == s.history;
    if fault != InsertFails {
      assert saved == Upsert(s, p, at).store;
    }
  }

  /** The tasks of `check_prices`, in snapshot order. */
  function CheckEach(s: Store, snap: seq<ProductRow>, attempts: seq<Attempt>): (r: Checked)
    requires |attempts| == |snap|
    ensures |r.reported| <= |snap|
    ensures forall x :: x in r.reported <==> ReportedFrom(snap, attempts, x)
    ensures IdsAscending(snap) ==> forall i, j :: 0 <= i < j < |r.reported| ==> r.reported[i].id < r.reported[j].id
    ensures Extends(s.history, r.store.history)
    ensures forall u :: u !in Urls(snap) ==> RowByUrl(r.store, u) == RowByUrl(s, u)
    ensures forall q :: q !in Ids(snap) ==> PointsOf(r.store.history, q) == PointsOf(s.history, q)
    decreases |snap|
  {
    if |snap| == 0 then Checked(s, [])
    else
      var st := LenientStep(s, snap[0], attempts[0]);
      TailViews(snap);
      var rest := CheckEach(st.store, snap[1..], attempts[1..]);
      ExtendsTrans(s.history, st.store.history, rest.store.history);
      var reported := if st.reported.Some? then [st.reported.value] + rest.reported else rest.reported;
      ReportedCons(snap, attempts, st.reported, rest.reported);
      Checked(rest.store, reported)
  }

  /** What the fold reports: the report of some snapshot row whose fetch succeeded. */
  predicate ReportedFrom(snap: seq<ProductRow>, attempts: seq<Attempt>, x: ApiProduct)
    requires |attempts| == |snap|
  {
    SomeAt(snap, attempts, (row, a) => ReportedAt(row, a, x))
  }

  /** `x` is what `check_prices` reports for the row under this attempt. */
  predicate ReportedAt(row: ProductRow, a: Attempt, x: ApiProduct) {
    FetchOk(row.url, a) && x == Report(row, a)
  }

  /** Some row, taken with the attempt at the same position, satisfies `at`. */
  predicate SomeAt<R, A>(rows: seq<R>, tries: seq<A>, at: (R, A) -> bool)
    requires |tries| == |rows|
  {
    exists j :: 0 <= j < |rows| && at(rows[j], tries[j])
  }

  /** A row satisfies `at` exactly when the first does or one of the rest does. */
  lemma SomeAtCons<R, A>(rows: seq<R>, tries: seq<A>, at: (R, A) -> bool)
    requires |tries| == |rows| && |rows| > 0
    ensures SomeAt(rows, tries, at) <==> at(rows[0], tries[0]) || SomeAt(rows[1..], tries[1..], at)
  {
    if SomeAt(rows[1..], tries[1..], at) {
      var j :| 0 <= j < |rows[1..]| && at(rows[1..][j], tries[1..][j]);
      assert at(rows[j + 1], tries[j + 1]);
    }
    if SomeAt(rows, tries, at) && !at(rows[0], tries[0]) {
      var j :| 0 <= j < |rows| && at(rows[j], tries[j]);
      assert rows[1..][j - 1] == rows[j] && tries[1..][j - 1] == tries[j];
    }
  }

  lemma ReportedTail(snap: seq<ProductRow>, attempts: seq<Attempt>, x: ApiProduct)
    requires |attempts| == |snap| && |snap| > 0
    ensures ReportedFrom(snap, attempts, x) <==>
      ReportedAt(snap[0], attempts[0], x) || ReportedFrom(snap[1..], attempts[1..], x)
  {
    SomeAtCons(snap, attempts, (row, a) => ReportedAt(row, a, x));
  }

  lemma ReportedAfterHead(snap: seq<ProductRow>, attempts: seq<Attempt>, x: ApiProduct)
    requires |attempts| == |snap| && |snap| > 0
    requires IdsAscending(snap)
    requires ReportedFrom(snap[1..], attempts[1..], x)
    ensures snap[0].id < x.id
  {
    var j :| 0 <= j < |snap[1..]| && ReportedAt(snap[1..][j], attempts[1..][j], x);
    assert snap[1..][j] == snap[j + 1];
    assert x.id == snap[j + 1].id;
  }

  lemma ReportedCons(snap: seq<ProductRow>, attempts: seq<Attempt>, head: Option<ApiProduct>, rest: seq<ApiProduct>)
    requires |attempts| == |snap| && |snap| > 0
    requires head.Some? <==> FetchOk(snap[0].url, attempts[0])
    requires head.Some? ==> head.value == Report(snap[0], attempts[0])
    requires |rest| < |snap|
    requires forall x :: x in rest <==> ReportedFrom(snap[1..], attempts[1..], x)
    requires IdsAscending(snap[1..]) ==> forall i, j :: 0 <= i < j < |rest| ==> rest[i].id < rest[j].id
    ensures var all := if head.Some? then [head.value] + rest else rest;
      && |all| <= |snap|
      && (forall x :: x in all <==> ReportedFrom(snap, attempts, x))
      && (IdsAscending(snap) ==> forall i, j :: 0 <= i < j < |all| ==> all[i].id < all[j].id)
  {
    ReportedConsMembers(snap, attempts, head, rest);
    if IdsAscending(snap) {
      assert IdsAscending(snap[1..]) by {
        assert forall j :: 1 <= j < |snap| ==> snap[1..][j - 1] == snap[j];
      }
      forall k | 0 <= k < |rest| ensures snap[0].id < rest[k].id {
        assert rest[k] in rest;
        ReportedAfterHead(snap, attempts, rest[k]);
      }
      ConsAscending(head, rest, snap[0].id);
    }
  }

  lemma ReportedConsMembers(snap: seq<ProductRow>, attempts: seq<Attempt>, head: Option<ApiProduct>, rest: seq<ApiProduct>)
    requires |attempts| == |snap| && |snap| > 0
    requires head.Some? <==> FetchOk(snap[0].url, attempts[0])
    requires head.Some? ==> head.value == Report(snap[0], attempts[0])
    requires forall x :: x in rest <==> ReportedFrom(snap[1..], attempts[1..], x)
    ensures var all := if head.Some? then [head.value] + rest else rest;
      forall x :: x in all <==> ReportedFrom(snap, attempts, x)
  {
    var all := if head.Some? then [head.value] + rest else rest;
    forall x ensures x in all <==> ReportedFrom(snap, attempts, x) {
      ReportedTail(snap, attempts, x);
    }
  }

  /** Putting a report with a smaller id in front keeps the ids ascending. */
  lemma ConsAscending(head: Option<ApiProduct>, rest: seq<ApiProduct>, id: int)
    requires head.Some? ==> head.value.id == id
    requires forall k :: 0 <= k < |rest| ==> id < rest[k].id
    requires forall i, j :: 0 <= i < j < |rest| ==> rest[i].id < rest[j].id
    ensures var all := if head.Some? then [head.value] + rest else rest;
      forall i, j :: 0 <= i < j < |all| ==> all[i].id < all[j].id
  {
    var all := if head.Some? then [head.value] + rest else rest;
    if head.Some? {
      forall i, j | 0 <= i < j < |all| ensures all[i].id < all[j].id {
        assert all[j] == rest[j - 1];
        if i > 0 {
          assert all[i] == rest[i - 1];
        }
      }
    }
  }

  /** `check_prices`. `listFails` stands for the snapshot query failing. */
  function CheckPrices(s: Store, listFails: bool, attempts: seq<Attempt>): (r: Response<seq<ApiProduct>>)
    requires |attempts| == |s.products|
    ensures listFails ==> r == Response(s, Err(InternalServerError))
    ensures !listFails ==> r.result.Ok?
    ensures r.result.Ok? ==> forall x :: x in r.result.value <==>
      exists j :: 0 <= j < |s.products| && FetchOk(s.products[j].url, attempts[j]) && x == Report(s.products[j], attempts[j])
    ensures r.result.Ok? && IdsAscending(s.products) ==>
      forall i, j :: 0 <= i < j < |r.result.value| ==> r.result.value[i].id < r.result.value[j].id
    ensures Extends(s.history, r.store.history)
  {
    if listFails then Response(s, Err(InternalServerError))
    else
      var c := CheckEach(s, s.products, attempts);
      Response(c.store, Ok(c.reported))
  }

  lemma LenientKeepsTailPresent(s: Store, snap: seq<ProductRow>, a: Attempt)
    requires |snap| > 0
    requires UrlsUnique(snap)
    requires AllPresent(s, snap)
    ensures AllPresent(LenientStep(s, snap[0], a).store, snap[1..])
  {
    var st := LenientStep(s, snap[0], a);
    var tail := snap[1..];
    forall j | 0 <= j < |tail| ensures Present(st.store, tail[j]) {
      assert tail[j] == snap[j + 1];
      assert Present(s, snap[j + 1]);
    }
  }

  lemma {:induction false} CheckEachRow(s: Store, snap: seq<ProductRow>, attempts: seq<Attempt>, i: nat)
    requires |attempts| == |snap|
    requires UrlsUnique(snap) && IdsAscending(snap)
    requires AllPresent(s, snap)
    requires i < |snap|
    ensures RowByUrl(CheckEach(s, snap, attempts).store, snap[i].url) ==
      Some(RowAfter(RowByUrl(s, snap[i].url).value, snap[i].url, attempts[i]))
    decreases i
  {
    var st := LenientStep(s, snap[0], attempts[0]);
    TailFacts(snap);
    assert Present(s, snap[0]);
    if i > 0 {
      LenientKeepsTailPresent(s, snap, attempts[0]);
      CheckEachRow(st.store, snap[1..], attempts[1..], i - 1);
      assert snap[1..][i - 1] == snap[i] && attempts[1..][i - 1] == attempts[i];
      assert snap[i].url != snap[0].url;
    }
  }

  lemma {:induction false} CheckEachHistory(s: Store, snap: seq<ProductRow>, attempts: seq<Attempt>, i: nat)
    requires |attempts| == |snap|
    requires UrlsUnique(snap) && IdsAscending(snap)
    requires AllPresent(s, snap)
    requires i < |snap|
    ensures PointsOf(CheckEach(s, snap, attempts).store.history, snap[i].id) ==
      PointsOf(s.history, snap[i].id) + LenientPointsAdded(snap[i], attempts[i])
    decreases i
  {
    var st := LenientStep(s, snap[0], attempts[0]);
    TailFacts(snap);
    assert Present(s, snap[0]);
    if i > 0 {
      LenientKeepsTailPresent(s, snap, attempts[0]);
      CheckEachHistory(st.store, snap[1..], attempts[1..], i - 1);
      assert snap[1..][i - 1] == snap[i] && attempts[1..][i - 1] == attempts[i];
      assert snap[i].id != snap[0].id;
    }
  }

  /** Each product of the snapshot ends up as its own attempt leaves it. A
      history point is written even when the upsert before it failed. */
  lemma CheckPricesReconciles(s: Store, attempts: seq<Attempt>, i: nat)
    requires Valid(s)
    requires |attempts| == |s.products|
    requires i < |s.products|
    ensures
      var row, final := s.products[i], CheckPrices(s, false, attempts).store;
      && RowByUrl(final, row.url) == Some(RowAfter(row, row.url, attempts[i]))
      && PointsOf(final.history, row.id) == PointsOf(s.history, row.id) + LenientPointsAdded(row, attempts[i])
  {
    forall j | 0 <= j < |s.products| ensures Present(s, s.products[j]) {
      RowByUrlAt(s, j);
    }
    CheckEachRow(s, s.products, attempts, i);
    CheckEachHistory(s, s.products, attempts, i);
    RowByUrlAt(s, i);
  }

  lemma LenientStepPreservesValid(s: Store, row: ProductRow, a: Attempt)
    requires Valid(s)
    requires Present(s, row)
    requires NotAfter(s.history, a.at)
    ensures Valid(LenientStep(s, row, a).store)
    ensures NotAfter(LenientStep(s, row, a).store.history, a.at)
  {
    if FetchOk(row.url, a) {
      var p := Fetch(row.url, a).value;
      var saved := SaveProduct(s, p, a.at, a.upsert).store;
      if a.upsert != InsertFails {
        UpsertPreservesValid(s, p, a.at);
      }
      assert row.id in Ids(saved.products) by {
        var cur := RowByUrl(s, row.url).value;
        var k := IndexOfUrl(s.products, row.url).value;
        assert s.products[k].id == row.id;
      }
      if !a.appendFails {
        AppendPreservesValid(saved, row.id, p.price, a.at);
      }
    }
  }

  lemma {:induction false} CheckEachPreservesValid(s: Store, snap: seq<ProductRow>, attempts: seq<Attempt>)
    requires |attempts| == |snap|
    requires Valid(s)
    requires UrlsUnique(snap)
    requires AllPresent(s, snap)
    requires Ticks(s.history, attempts)
    ensures Valid(CheckEach(s, snap, attempts).store)
    decreases |snap|
  {
    if |snap| > 0 {
      var st := LenientStep(s, snap[0], attempts[0]).store;
      assert Valid(st) && NotAfter(st.history, attempts[0].at) by {
        LenientStepPreservesValid(s, snap[0], attempts[0]);
      }
      assert AllPresent(st, snap[1..]) by {
        LenientKeepsTailPresent(s, snap, attempts[0]);
      }
      assert Ticks(st.history, attempts[1..]) by {
        TicksAfterFirst(s.history, st.history, attempts);
      }
      assert UrlsUnique(snap[1..]) by {
        assert forall j :: 1 <= j < |snap| ==> snap[1..][j - 1] == snap[j];
      }
      CheckEachPreservesValid(st, snap[1..], attempts[1..]);
      CheckEachStore(s, snap, attempts);
    }
  }

  /** The fold's store is the first step's followed by the rest of the fold. */
  lemma CheckEachStore(s: Store, snap: seq<ProductRow>, attempts: seq<Attempt>)
    requires |attempts| == |snap| > 0
    ensures CheckEach(s, snap, attempts).store ==
      CheckEach(LenientStep(s, snap[0], attempts[0]).store, snap[1..], attempts[1..]).store
  {
  }

  lemma CheckPricesPreservesValid(s: Store, listFails: bool, attempts: seq<Attempt>)
    requires Valid(s)
    requires |attempts| == |s.products|
    requires Ticks(s.history, attempts)
    ensures Valid(CheckPrices(s, listFails, attempts).store)
  {
    forall j | 0 <= j < |s.products| ensures Present(s, s.products[j]) {
      RowByUrlAt(s, j);
    }
    if !listFails {
      CheckEachPreservesValid(s, s.products, attempts);
    }
  }

  // ---------------------------------------------------------------------
  // GET /api/products/:id/history

  function Entries(xs: seq<PricePoint>): (r: seq<HistoryEntry>)
    ensures |r| == |xs|
    ensures forall k :: 0 <= k < |xs| ==> r[k] == Entry(xs[k])
  {
    seq(|xs|, k requires 0 <= k < |xs| => Entry(xs[k]))
  }

  lemma SortedMembers(pts: seq<PricePoint>)
    ensures forall pt :: pt in HistoryOrder.SortByTime(pts) <==> pt in pts
  {
    var xs := HistoryOrder.SortByTime(pts);
    assert forall pt :: pt in xs <==> pt in multiset(xs);
    assert forall pt :: pt in pts <==> pt in multiset(pts);
  }

  lemma EntriesMembers(xs: seq<PricePoint>)
    ensures forall e :: e in Entries(xs) <==> exists pt :: pt in xs && e == Entry(pt)
  {
    var es := Entries(xs);
    forall pt | pt in xs ensures Entry(pt) in es {
      var k :| 0 <= k < |xs| && xs[k] == pt;
      assert es[k] == Entry(pt);
    }
  }

  lemma EntriesAppend(a: seq<PricePoint>, b: seq<PricePoint>)
    ensures Entries(a + b) == Entries(a) + Entries(b)
  {
    var l, r := Entries(a + b), Entries(a) + Entries(b);
    assert forall k :: 0 <= k < |a| ==> (a + b)[k] == a[k] && l[k] == r[k];
    assert forall k :: |a| <= k < |a + b| ==> (a + b)[k] == b[k - |a|] && l[k] == r[k];
  }

  /** Rearranging the points rearranges their entries the same way. */
  lemma {:induction false} EntriesPermutation(xs: seq<PricePoint>, ys: seq<PricePoint>)
    requires multiset(xs) == multiset(ys)
    ensures multiset(Entries(xs)) == multiset(Entries(ys))
    decreases |xs|
  {
    if |xs| == 0 {
      assert |ys| == |multiset(ys)| == 0;
    } else {
      var x := xs[0];
      assert x in multiset(ys);
      var k :| 0 <= k < |ys| && ys[k] == x;
      var lo, hi := ys[..k], ys[k + 1..];
      assert ys == lo + [x] + hi;
      assert xs == [x] + xs[1..];
      assert multiset(ys) == multiset(lo + hi) + multiset{x};
      assert multiset(xs) == multiset(xs[1..]) + multiset{x};
      assert multiset(xs[1..]) == multiset(xs) - multiset{x};
      assert multiset(lo + hi) == multiset(ys) - multiset{x};
      EntriesPermutation(xs[1..], lo + hi);
      EntriesAppend([x], xs[1..]);
      EntriesAppend(lo + [x], hi);
      EntriesAppend(lo, [x]);
      EntriesAppend(lo, hi);
    }
  }

  /** `get_price_history`: the points of one product, oldest first. An id
      nobody uses is not an error; it just has no points. */
  function GetPriceHistory(s: Store, id: int, readFails: bool): (r: Result<seq<HistoryEntry>, StatusCode>)
    ensures r.Err? <==> readFails
    ensures r.Err? ==> r.error == InternalServerError
    ensures r.Ok? ==> |r.value| == |PointsOf(s.history, id)|
    ensures r.Ok? ==> forall i, j :: 0 <= i < j < |r.value| ==> r.value[i].checkedAt <= r.value[j].checkedAt
    ensures r.Ok? ==> forall e :: e in r.value <==>
      exists pt :: pt in s.history && pt.productId == id && e == Entry(pt)
    ensures r.Ok? ==> multiset(r.value) == multiset(Entries(PointsOf(s.history, id)))
  {
    if readFails then Err(InternalServerError)
    else
      var pts := PointsOf(s.history, id);
      var xs := HistoryOrder.SortByTime(pts);
      var es := Entries(xs);
      SortedMembers(pts);
      EntriesMembers(xs);
      EntriesPermutation(xs, pts);
      Ok(es)
  }

  /** In a valid store the answer is the product's history in the order it
      was written. */
  lemma GetPriceHistoryInWriteOrder(s: Store, id: int)
    requires Valid(s)
    ensures GetPriceHistory(s, id, false) == Ok(Entries(PointsOf(s.history, id)))
  {
    assert Chronological(PointsOf(s.history, id));
  }

  /** In a valid store an id that names no product has an empty history. */
  lemma GetPriceHistoryUnknownId(s: Store, id: int)
    requires Valid(s)
    requires id !in Ids(s.products)
    ensures GetPriceHistory(s, id, false) == Ok([])
  {
    PointsOfEmptyWhenAbsent(s.history, id);
  }

  // ---------------------------------------------------------------------
  // DELETE /api/products/:id

  /** `delete_product`: delete the history, then the row; two statements
      with no transaction around them. A failure of the second leaves the
      history deleted. */
  function DeleteProduct(s: Store, id: int, fault: DeleteFault): (r: Response<StatusCode>)
    ensures fault == HistoryDeleteFails ==> r == Response(s, Err(InternalServerError))
    ensures fault == ProductDeleteFails ==> r.result == Err(InternalServerError) && r.store.products == s.products
    ensures fault == NoDeleteFault ==> (r.result == Ok(NoContent) <==> id in Ids(s.products))
    ensures fault == NoDeleteFault ==> (r.result == Err(NotFound) <==> id !in Ids(s.products))
    ensures fault == NoDeleteFault ==> forall row :: row in r.store.products <==> row in s.products && row.id != id
    ensures fault == NoDeleteFault ==> Ids(r.store.products) == Ids(s.products) - {id}
    ensures fault == NoDeleteFault && id !in Ids(s.products) ==> r.store.products == s.products
    ensures fault != HistoryDeleteFails ==> PointsOf(r.store.history, id) == []
    ensures fault != HistoryDeleteFails ==> forall pt :: pt in r.store.history <==> pt in s.history && pt.productId != id
    ensures forall q :: q != id ==> PointsOf(r.store.history, q) == PointsOf(s.history, q)
    ensures r.store.nextId == s.nextId
  {
    if fault == HistoryDeleteFails then Response(s, Err(InternalServerError))
    else
      var cleared := s.(history := DeletePointsOf(s.history, id));
      if fault == ProductDeleteFails then Response(cleared, Err(InternalServerError))
      else
        var ps := DeleteRowsWithId(cleared.products, id);
        var deleted := |cleared.products| - |ps|;
        if deleted == 0 then
          assert ps == s.products by {
            DeleteRowsKeepsAllWithoutId(s.products, id);
          }
          Response(cleared.(products := ps), Err(NotFound))
        else Response(cleared.(products := ps), Ok(NoContent))
  }

  lemma {:induction false} DeleteRowsKeepsAllWithoutId(ps: seq<ProductRow>, id: int)
    requires id !in Ids(ps)
    ensures DeleteRowsWithId(ps, id) == ps
  {
    if |ps| > 0 {
      var init := ps[..|ps| - 1];
      assert ps == init + [ps[|ps| - 1]];
      assert id !in Ids(init) by {
        assert forall i :: 0 <= i < |init| ==> init[i] == ps[i];
      }
      DeleteRowsKeepsAllWithoutId(init, id);
    }
  }

  lemma DeleteProductPreservesValid(s: Store, id: int, fault: DeleteFault)
    requires Valid(s)
    ensures Valid(DeleteProduct(s, id, fault).store)
  {
    DeleteProductStore(s, id, fault);
    if fault != HistoryDeleteFails {
      ClearedStoreValid(s, id, fault == NoDeleteFault);
    }
  }

  /** The store a delete leaves: untouched when the history statement fails,
      otherwise the history of `id` is gone, and its row too unless the second
      statement fails. */
  lemma DeleteProductStore(s: Store, id: int, fault: DeleteFault)
    ensures fault == HistoryDeleteFails ==> DeleteProduct(s, id, fault).store == s
    ensures fault != HistoryDeleteFails ==>
      var kept := if fault == NoDeleteFault then DeleteRowsWithId(s.products, id) else s.products;
      DeleteProduct(s, id, fault).store == Store(kept, DeletePointsOf(s.history, id), s.nextId)
  {
  }

  lemma ClearedStoreValid(s: Store, id: int, dropRow: bool)
    requires Valid(s)
    ensures Valid(Store(if dropRow then DeleteRowsWithId(s.products, id) else s.products,
                        DeletePointsOf(s.history, id), s.nextId))
  {
    var ps := if dropRow then DeleteRowsWithId(s.products, id) else s.products;
    var h := DeletePointsOf(s.history, id);
    assert RowsValid(s.products, s.nextId);
    if dropRow {
      DeleteRowsKeepsRowsValid(s.products, id, s.nextId);
    }
    assert RowsValid(ps, s.nextId);
    assert NoOrphans(Store(ps, h, s.nextId));
    forall q ensures Chronological(PointsOf(h, q)) {
      if q != id {
        assert Chronological(PointsOf(s.history, q));
      }
    }
  }
}
